=== FILE: README.md ===
# Loyalty bot ledger — a Dafny model

A model of the loyalty-programme core of a restaurant Telegram bot. The bot
keeps one database of users, table bookings and point-redemption requests, plus
one `user_data` dialogue session per Telegram identity. Its handlers:

- register a user in three questions, and on confirmation give the user
  100 welcome points and an internal id from the pool 1..3000;
- take a redemption amount, file a pending request, and let an
  administrator approve it (debiting the points) or reject it through
  callback buttons whose data names the request;
- let an administrator list the registered users and credit 5% of a
  purchase amount to a user;
- take a table booking;
- broadcast a message to every registered user.

Every handler is a pure function from the store, the caller's session and the
update to an `Outcome`:

- the store after the handler's commit;
- the caller's session afterwards;
- the messages sent, in order, each as a chat id and a body;
- whether the handler ended by raising before it committed.

The files:

- `config.dfy`: the administrator allow-list and the constants 100, 5, 3000 and 10.
- `database.dfy`: the three tables as immutable rows. The store also carries
  the next value of each primary-key sequence, the `.first()` lookups, and
  the table constraints (`Valid`).
- `conversation.dfy`: the session keys, the message bodies and `Outcome`.
- `pytext.dfy`: the parts of Python the handlers rely on, written out:
  - `str.split()` over the full `str.isspace` set;
  - `str.split('_')`;
  - `int()` on a string: the whitespace it skips at both ends (that of
    `str.isspace` without U+001C..U+001F), a sign, and underscores
    between digits;
  - `str()` of an integer.
- `id_pool.dfy`: internal-id allocation at registration.
- `user_handlers.dfy`, `redemption_handlers.dfy`, `admin_handlers.dfy`,
  `booking_handlers.dfy` and `broadcast_handlers.dfy`: one module per
  handler file.
- `bot.dfy`: the whole bot as a world of one store and many sessions, with
  properties of arbitrary runs.

Behaviours of the code that the model keeps and proves:

- `registration_step` is never cleared, so once set every later text
  message is read as a registration answer (`Bot.TextStaysWithRegistration`).
- `awaiting_booking_data` is set by no handler, so text is never routed to
  the booking input (`Bot.BookingTextUnreachable`).
- A redemption request with a negative amount passes the balance check,
  and approving it raises the balance (`RedemptionHandlers.NegativeRequestCredits`).
- Resolution does not check that a request is still pending
  (`RedemptionHandlers.ConfirmTwiceDebitsTwice`).
- A negative purchase amount lowers a balance (`AdminHandlers.NegativeBonusDebits`).
- Confirming a registration again resets the balance to 100 and moves the
  user to another id (`UserHandlers.ReconfirmResetsBalance`).
- A broadcast of a message with no text, photo or video counts every
  recipient as reached (`BroadcastHandlers.EmptyContentCountsEveryone`).
- `handle_admin_action` and `handle_admin_redemption` make no allow-list
  check, and `admin_action` stays armed after a bonus input.
- The amount handler does not check `registration_complete`: a user with
  only a placeholder row can file a request for an amount up to the
  balance of 0 (`RedemptionHandlers.HandleRedemptionConfirmation`).

Further points of the code:

- Allocation takes the largest pool id in use plus one, and only falls back
  to the smallest free id once that would pass 3000.
- A request whose balance no longer covers it at approval is marked
  `rejected`, not left pending.
- No transaction log is written.
- Neither the redemption amount nor the booking's date, time or guest count
  is validated.
- `edit_registration` resets the step and edits the button's message, then
  raises: a button press carries no `update.message`, and the question is
  sent through `update.message.reply_text` (`UserHandlers.EditRegistration`).

Database behaviour taken from the schema:

- The primary-key sequence of `users` keeps issuing ids after registration
  has moved rows into the pool. The insert for a new user therefore fails,
  and the sequence value is still consumed, when that id was already handed
  out from the pool (`UserHandlers.FirstContact`).
- A reject press for a request whose user row is gone still rejects it,
  because `action == 'confirm' and user.bonus_balance >= …` short-circuits.
  A confirm press for such a request raises.

## Model

| member | source | states |
|---|---|---|
| PyText.Strip | handlers/redemption_handlers.py:36 | the whitespace `int()` skips is removed at both ends: the result is a slice `s[i..j]` with only whitespace outside it and none at either of its ends |
| PyText.ParseInt | handlers/redemption_handlers.py:36 | `int(text)`: a result means the stripped text is a literal of digits and underscores with an optional leading sign, ending in a digit, with `-` in front of every negative value; ParseIntOfIntToString and IntToStringOfParseInt give the inverse both ways |
| PyText.ParseIntAccepts | handlers/redemption_handlers.py:36 | `int(text)` succeeds exactly when the stripped text is one optional `+` or `-` followed by digits with single underscores between them, and its value is those digits' value, negated after `-`; so "_1", "1__0", "+_1" and "1_" are refused |
| PyText.ParseIntOfLiteral | handlers/redemption_handlers.py:36 | every accepted literal, with any whitespace `int()` skips before and after it, a `+`, `-` or no sign, and leading zeros or underscores between digits, reads as its digits' value with the sign applied |
| PyText.Split | handlers/admin_handlers.py:80 | `str.split()` yields only non-empty tokens without whitespace |
| PyText.SplitSpaced | handlers/admin_handlers.py:80 | for words laid out with any whitespace before, after and (non-empty) between them, `str.split()` returns exactly those words in order: the tokens are the maximal whitespace-free runs |
| PyText.SplitJoinWords | handlers/booking_handlers.py:34 | splitting whitespace-free words joined by single spaces gives back exactly those words |
| PyText.IntToString | handlers/redemption_handlers.py:81 | `str(n)` is non-empty, all digits except a leading `-`, and starts with `-` exactly when `n` is negative |
| PyText.ParseIntOfIntToString | handlers/redemption_handlers.py:102 | `int(str(n)) == n` for every integer (the digit limit of CPython is left out) |
| PyText.IntToStringOfParseInt | handlers/redemption_handlers.py:36 | a canonical integer literal parses to a value whose `str` is the literal again |
| PyText.SplitOn | handlers/redemption_handlers.py:102 | `split('_')` yields at least one part, no part contains `_`, and joining the parts with `_` restores the text |
| PyText.SplitOnJoinOn | handlers/redemption_handlers.py:102 | splitting parts joined by `_`, none containing `_`, gives back the parts |
| Database.FindFirst | handlers/user_handlers.py:15 | `.first()`: the position of the first matching row, or none when no row matches |
| Database.UserByTelegram | handlers/user_handlers.py:15 | the found row has the telegram id; none found means no row has it |
| Database.UserById | handlers/admin_handlers.py:87 | the found row has the internal id; none found means no row has it |
| Database.RegisteredUserByTelegram | handlers/booking_handlers.py:27 | the found row has the telegram id and is registered; none found means no such row |
| Database.RequestById | handlers/redemption_handlers.py:107 | the found request has the id; none found means no request has it |
| Database.RegisteredUsers | handlers/admin_handlers.py:42 | exactly the registered rows: every returned row is a registered row of the table, and each registered row is returned as many times as the table holds it, so the count is the number of registered rows |
| IdPool.MaxPoolId | handlers/user_handlers.py:110 | the largest id in 1..3000 in use, none exactly when no row holds a pool id |
| IdPool.SmallestFree | handlers/user_handlers.py:114-115 | the first id from `k` up to 3000 not in use, with every id before it in use; none means all are in use |
| IdPool.AllocateId | handlers/user_handlers.py:109-117 | the allocated id is always a pool id, and allocation fails only when every pool id is held; AllocateIdFresh and AllocateIdChoice pin which id |
| IdPool.AllocateIdFresh | handlers/user_handlers.py:109-117 | an allocated id is in 1..3000 and held by no row, including the caller's own; allocation fails exactly when every pool id is held |
| IdPool.AllocateIdChoice | handlers/user_handlers.py:110-115 | while 3000 is free the id is one above every pool id in use (1 for an unused pool); otherwise every smaller pool id is in use |
| UserHandlers.AskRegistrationData | handlers/user_handlers.py:49-58 | question `step` while `step < 3` (0 when unset), else the summary of the collected answers |
| UserHandlers.Start | handlers/user_handlers.py:10-46 | a registered caller gets the menu and a partially registered one the current question, both without any change; otherwise the first-contact branch; constraints kept |
| UserHandlers.FirstContact | handlers/user_handlers.py:33-43 | a placeholder row with balance 0, unregistered and without names, under the next sequence value, and step 0; the sequence advances; the insert fails exactly when a pool id took that value |
| UserHandlers.HandleRegistrationData | handlers/user_handlers.py:61-73 | the answer is stored under the field of the current step (dropped past step 2), the step becomes step+1, nothing else in the session or store changes, and the next question or summary follows |
| UserHandlers.DialogueCollectsAnswers | handlers/user_handlers.py:61-73 | three answers from step 0 fill first name, last name and phone in order and end with their summary |
| UserHandlers.HandleRegistration | handlers/user_handlers.py:93-137 | the caller's row gets the session's answers, balance exactly 100, the registered flag and a pool id no other row holds; no row means no change; a full pool raises with no change; session untouched; constraints kept |
| UserHandlers.ReconfirmResetsBalance | handlers/user_handlers.py:101-117 | confirming again while a pool id is free sets the balance back to 100 and changes the user's id |
| UserHandlers.EditRegistration | handlers/user_handlers.py:140-146 | the step returns to 0 and the collected answers stay; the restart notice is the only message, and the handler raises before asking the first question (the call at line 146 reaches `update.message.reply_text` at line 54 with no message) |
| UserHandlers.EditRestartsQuestions | handlers/user_handlers.py:140-146 | after an edit press the next text message is taken as the first name again, and the second question follows |
| UserHandlers.RouteText | handlers/user_handlers.py:170-179 | a set registration step wins; then the redemption prompt; then the booking prompt; otherwise the menu hint |
| UserHandlers.HandleAllMessages | handlers/user_handlers.py:165-179 | the outcome is that of the handler the session's flags route to, or the menu hint with no change |
| UserHandlers.TextAfterRegistrationStep | handlers/user_handlers.py:170-171 | with a registration step set, text never touches the store, the step stays set, and the redemption prompt stays as it was |
| RedemptionHandlers.RedeemDataParses | handlers/redemption_handlers.py:81-82 | the button data built for any action without `_` and any request id parses back to that action and id |
| RedemptionHandlers.ParseRedeemData | handlers/redemption_handlers.py:102 | the data is read exactly when `split('_')` gives at least four fields and `int()` accepts the fourth; the action is then the third field, so it never holds `_`, and the id is the fourth field's value |
| RedemptionHandlers.ParseRedeemDataOfFields | handlers/redemption_handlers.py:102 | for any data, written as its `_`-free fields: malformed with fewer than four fields or a fourth field `int()` refuses, otherwise the third field and the fourth's value, whatever the first two fields are and however many fields follow |
| RedemptionHandlers.ShortRedeemDataMalformed | handlers/redemption_handlers.py:102 | `admin_redeem_confirm`, with no id field, is malformed |
| RedemptionHandlers.StartRedemption | handlers/redemption_handlers.py:8-27 | only a registered caller gets the amount prompt armed and sees the balance; no balance threshold; the store is untouched |
| RedemptionHandlers.NotifyAdminsOfRedemption | handlers/redemption_handlers.py:71-95 | one message per administrator whose confirm and reject data name the new request |
| RedemptionHandlers.FileRequest | handlers/redemption_handlers.py:42-58 | exactly one pending request for the caller's row is appended under the next request id, the administrators are notified and the caller told, and nothing else in the store changes |
| RedemptionHandlers.HandleRedemptionConfirmation | handlers/redemption_handlers.py:30-68 | a request is filed exactly when the prompt was armed, the text is an integer and the caller's row covers it; it is appended pending under the next request id and no balance changes; the prompt is disarmed after any handled input; constraints kept |
| RedemptionHandlers.Resolve | handlers/redemption_handlers.py:102-111 | no resolution exactly for malformed data, an unknown request id, or a confirm whose user row is gone; otherwise the resolved request is the one the data's id names, and it is approved (debiting its user) exactly when the action is `confirm` and that user's balance covers the amount |
| RedemptionHandlers.HandleAdminRedemption | handlers/redemption_handlers.py:98-130 | malformed data or a confirm for a missing user raises with no change; an unknown request changes nothing; otherwise the resolution is applied |
| RedemptionHandlers.RejectRejects | handlers/redemption_handlers.py:107-129 | a reject press on an existing request rejects exactly that request and changes no balance, without consulting the user row |
| RedemptionHandlers.ConfirmUncoveredRejects | handlers/redemption_handlers.py:111-129 | a confirm press whose user's balance does not cover the amount rejects the request and changes no balance |
| RedemptionHandlers.ApplyResolution | handlers/redemption_handlers.py:111-129 | only the named request changes status; approval debits exactly the amount from that user alone and leaves the balance non-negative; rejection changes no balance; constraints kept |
| RedemptionHandlers.ConfirmResolves | handlers/redemption_handlers.py:102-111 | pressing confirm on a request whose user's balance covers it approves it for that user |
| RedemptionHandlers.NegativeAmountFiled | handlers/redemption_handlers.py:36-53 | a negative amount typed by a caller with a row and a non-negative balance is filed as a pending request for that amount |
| RedemptionHandlers.ApproveNegativeRequestCredits | handlers/redemption_handlers.py:107-114 | confirming a request for a negative amount approves it and raises the user's balance by the amount's magnitude |
| RedemptionHandlers.NegativeRequestCredits | handlers/redemption_handlers.py:43-113 | a negative amount files a request, and approving it raises the user's balance |
| RedemptionHandlers.ConfirmTwiceDebitsTwice | handlers/redemption_handlers.py:107-114 | confirming the same request twice debits the amount twice |
| AdminHandlers.AdminPanelCommand | handlers/admin_handlers.py:8-23 | the panel for an administrator, access denied for anyone else, and no change either way |
| AdminHandlers.UsersListBody | handlers/admin_handlers.py:38-58 | empty message exactly when nobody is registered; otherwise the first min(n, 10) registered users of the query's result, with the remainder n-10 shown exactly when n > 10 |
| AdminHandlers.HandleAdminAction | handlers/admin_handlers.py:26-35 | the bonus button arms `add_bonus` and asks for input, the users button shows the list, any other data does nothing; no allow-list check |
| AdminHandlers.Cashback | handlers/admin_handlers.py:89 | 5% of the amount truncated toward zero: for a non-negative amount the largest credit with credit*100 <= amount*5, mirrored for a negative one |
| AdminHandlers.ParseBonusInput | handlers/admin_handlers.py:80-82 | a result exactly when the text splits into two tokens that both parse as integers, and then those two values; BonusInputRoundTrip is its inverse |
| AdminHandlers.ProcessBonusAddition | handlers/admin_handlers.py:78-114 | a malformed input gives the format error and an unknown id gives "not found", both with no change; otherwise the named user is credited |
| AdminHandlers.CreditUser | handlers/admin_handlers.py:87-106 | the user's balance rises by exactly the cashback and nothing else changes; the user and the administrator are told; constraints kept |
| AdminHandlers.HandleAdminInput | handlers/admin_handlers.py:66-75 | input is processed only for an administrator with `add_bonus` armed, and the armed action is kept |
| AdminHandlers.BonusInputRoundTrip | handlers/admin_handlers.py:80-82 | the text `"<id> <amount>"` parses back to that id and amount |
| AdminHandlers.NegativeBonusDebits | handlers/admin_handlers.py:80-90 | an amount of -20 or less lowers an existing user's balance |
| BookingHandlers.StartBooking | handlers/booking_handlers.py:7-17 | sets `booking_step` to 0 and leaves `awaiting_booking_data` as it was |
| BookingHandlers.NotifyAdminsOfBooking | handlers/booking_handlers.py:73-88 | one notice per administrator with the booking's data |
| BookingHandlers.ParseBookingInput | handlers/booking_handlers.py:34-39 | a result exactly when the text splits into three tokens whose last parses as an integer; date and time are the first two tokens, whitespace-free and non-empty; BookingInputRoundTrip is its inverse |
| BookingHandlers.HandleBookingData | handlers/booking_handlers.py:20-70 | a booking is added exactly when the caller is registered and the text is three tokens ending in an integer; it is appended pending under the next booking id for the caller's internal id; otherwise no change and the matching reply; constraints kept |
| BookingHandlers.BookingInputRoundTrip | handlers/booking_handlers.py:34-39 | two whitespace-free words and a guest count joined by spaces parse back to those values, any sign of count included |
| BookingHandlers.BookingFromLine | handlers/booking_handlers.py:38-49 | a registered user's line books exactly its date, time and guest count, pending, for that user |
| BroadcastHandlers.StartBroadcast | handlers/broadcast_handlers.py:8-21 | arms the broadcast only for an administrator; anyone else is refused with the flag unchanged |
| BroadcastHandlers.SendFor | handlers/broadcast_handlers.py:38-54 | non-empty text first, else the largest photo with the caption, else the video with the caption, else no call |
| BroadcastHandlers.Delivered | handlers/broadcast_handlers.py:36-57 | the counted recipients are never more than the recipients |
| BroadcastHandlers.DeliveredMembers | handlers/broadcast_handlers.py:36-57 | a recipient is counted exactly when its send did not fail, and everyone is counted when nothing fails |
| BroadcastHandlers.Copies | handlers/broadcast_handlers.py:38-54 | one copy per counted recipient to that recipient's chat, none when no call is made |
| BroadcastHandlers.SendToAll | handlers/broadcast_handlers.py:36-57 | the loop's count equals the number of counted recipients, at most the number of recipients, and it sends exactly their copies |
| BroadcastHandlers.HandleBroadcastContent | handlers/broadcast_handlers.py:24-63 | ignored unless an administrator has the broadcast armed; otherwise the copies go out, the count is reported, and the flag is cleared; the store is only read |
| BroadcastHandlers.BroadcastCopiesGoToRegistered | handlers/broadcast_handlers.py:33-54 | every copy goes to a registered user whose send succeeded |
| BroadcastHandlers.EmptyContentCountsEveryone | handlers/broadcast_handlers.py:38-55 | a message with nothing to copy sends nothing yet reports every registered user |
| BroadcastHandlers.BroadcastReachesAll | handlers/broadcast_handlers.py:33-55 | when no send fails the count is the number of registered users |
| BroadcastHandlers.BroadcastSkipsBlocked | handlers/broadcast_handlers.py:36-57 | of three registered users the one whose send fails is skipped, and 2 is reported |
| Bot.HandleValid | database.py:16-17 | every handler keeps telegram ids unique, user ids unique, and booking and request ids issued in order by their sequences |
| Bot.RunValid | database.py:16-17 | the constraints hold after any run of updates from a store that meets them |
| Bot.ReachableValid | database.py:16-17 | every store a freshly started bot reaches meets the constraints |
| Bot.HandleNoBookingPrompt | handlers/user_handlers.py:176-177 | no handler sets `awaiting_booking_data` |
| Bot.BookingTextUnreachable | handlers/user_handlers.py:176-177 | from sessions without it, the booking prompt stays unset in every run, so text is never routed to the booking input |
| Bot.HandleKeepsRegistrationStep | handlers/user_handlers.py:170-171 | no handler clears a set registration step |
| Bot.TextStaysWithRegistration | handlers/user_handlers.py:170-171 | once an identity has a registration step, all of its later text is routed to registration in every run |

## Left out

- Telegram I/O. Message texts, keyboards, `query.answer()` and message
  editing are not modelled. A message keeps some of the data its text is
  built from. The user's first and last name and phone are dropped from the
  administrators' redemption and booking notices, and the names from the
  bonus confirmation.
- Failures when notifying administrators or users. They are swallowed, so
  the model records every send attempt.
- The `query.answer()` at the top of `handle_redemption_confirmation`. A
  text update has no callback query there, so the call would fail. It is
  treated as transport noise, and the handler is modelled from line 34 on.
- `handle_all_messages` calls `redemption_handlers` and `booking_handlers`,
  which its file never imports. The model routes to the intended handlers.
- The nested, never-registered copy of `handle_all_messages` inside
  `edit_registration`. It is dead code.
- How commands and buttons reach the handlers. `bot.py`, `commands.py`,
  `main.py` and `gunicorn.conf.py` are not part of this model; an event
  names its handler directly.
- SQLAlchemy sessions, flushing, and `created_at` timestamps.
- Concurrency between webhook workers. Updates are handled one at a time.
- Loading configuration from the environment. The allow-list, 100, 5, 3000
  and 10 are constants.
- Success of a broadcast send. It is outside the model and given as an oracle.
- AdminHandlers.Cashback: exact truncation of amount*5/100. The source
  computes `int(amount * 0.05)` in floating point, which can differ once
  the amount passes about 2^52. For 6914144062867099, below 2^53, Python
  gives 345707203143355 where the model gives 345707203143354.
- AdminHandlers.ProcessBonusAddition: has no overflow error. For an amount
  of magnitude about 2^1024 or more, `amount * 0.05` raises
  `OverflowError`, which `except ValueError` does not catch. The handler
  then fails before the commit, while the model credits the cashback.
- PyText.ParseInt: accepts only ASCII digits. Python's `int()` also accepts
  other Unicode decimal digits, which the model rejects.
- PyText.ParseInt: has no digit limit. Since CPython 3.11, `int()` and `str()`
  raise `ValueError` on more than 4300 digits, so `int(str(n)) == n`
  (PyText.ParseIntOfIntToString) holds there only below that length.
- Database.RegisteredUsers: returns the registered rows in table order.
  `.all()` without `order_by` promises no order, so which ten users the list
  shows and the order of broadcast sends are not pinned by the source.
- Column widths (`String(100)`, `String(20)`) and the 32-bit `Integer`
  columns. Strings and integers are unbounded in the model, so a value
  Postgres would reject is accepted.

=== FILE: admin_handlers.dfy ===
/** The administrator panel: the allow-list gate on `/admin`, the panel's
    buttons, the registered-users list, and the typed "id amount" input that
    credits a user with 5% of a purchase amount. */
module AdminHandlers {
  import opened Maybe
  import opened Config
  import opened PyText
  import opened Database
  import opened Conversation

  /** `admin_panel`: the panel for an administrator, a refusal for anyone else;
      neither touches the store or the caller's `user_data`. */
  function AdminPanelCommand(st: Store, ses: Session, tg: int): (o: Outcome)
    ensures o.store == st && o.session == ses && !o.raised
    ensures o.sent == [Message(tg, if IsAdmin(tg) then AdminPanel else AccessDenied)]
  {
    if !IsAdmin(tg) then Reply(st, ses, tg, AccessDenied)
    else Reply(st, ses, tg, AdminPanel)
  }

  function Min(a: int, b: int): int
  {
    if a <= b then a else b
  }

  /** `show_users_list`: the registered users, the first ten of them listed,
      with a count of the rest when there are more than ten. */
  function UsersListBody(users: seq<User>): (b: Body)
    ensures RegisteredUsers(users) == [] <==> b == NoRegisteredUsers
    ensures b != NoRegisteredUsers ==> b.UsersList?
    ensures b.UsersList? ==>
      var n := |RegisteredUsers(users)|;
      && |b.shown| == Min(n, UsersShown)
      && b.shown == RegisteredUsers(users)[..|b.shown|]
      && (forall k :: 0 <= k < |b.shown| ==> b.shown[k].registrationComplete && b.shown[k] in users)
      && (b.more.Some? <==> n > UsersShown)
      && (b.more.Some? ==> b.more.value + UsersShown == n)
  {
    var registered := RegisteredUsers(users);
    if |registered| == 0 then NoRegisteredUsers
    else
      var shown := registered[..Min(|registered|, UsersShown)];
      UsersList(shown, if |registered| > UsersShown then Some(|registered| - UsersShown) else None)
  }

  /** `handle_admin_action`: the users button shows the list, the bonus button
      arms the bonus input; any other payload does nothing. No allow-list check
      is made here. */
  function HandleAdminAction(st: Store, ses: Session, tg: int, data: string): (o: Outcome)
    ensures o.store == st && !o.raised
    ensures data == "admin_add_bonus" ==>
      o.session == ses.(adminAction := Some("add_bonus")) && o.sent == [Message(tg, AskBonusInput)]
    ensures data != "admin_add_bonus" ==> o.session == ses
    ensures data == "admin_users" ==> o.sent == [Message(tg, UsersListBody(st.users))]
    ensures data != "admin_add_bonus" && data != "admin_users" ==> o.sent == []
  {
    if data == "admin_users" then Reply(st, ses, tg, UsersListBody(st.users))
    else if data == "admin_add_bonus" then Reply(st, ses.(adminAction := Some("add_bonus")), tg, AskBonusInput)
    else Silent(st, ses)
  }

  /** `int(amount * 0.05)`: five percent of the amount, truncated toward zero. */
  function Cashback(amount: int): (c: int)
    ensures amount >= 0 ==> 0 <= c && c * 100 <= amount * CashbackPercent < (c + 1) * 100
    ensures amount < 0 ==> c <= 0 && -c * 100 <= -amount * CashbackPercent < (-c + 1) * 100
  {
    if amount >= 0 then amount * CashbackPercent / 100
    else -((-amount) * CashbackPercent / 100)
  }

  /** The user id and amount of a well-formed bonus input: exactly two
      whitespace-separated tokens, each an integer. */
  function ParseBonusInput(text: string): (r: Option<(int, int)>)
    ensures r.Some? <==> |Split(text)| == 2 && ParseInt(Split(text)[0]).Some? && ParseInt(Split(text)[1]).Some?
    ensures r.Some? ==> r.value == (ParseInt(Split(text)[0]).value, ParseInt(Split(text)[1]).value)
  {
    var tokens := Split(text);
    if |tokens| != 2 then None
    else match (ParseInt(tokens[0]), ParseInt(tokens[1]))
      case (Some(id), Some(amount)) => Some((id, amount))
      case _ => None
  }

  /** `process_bonus_addition`: a malformed input or an unknown id changes
      nothing and says which; otherwise the named user is credited. */
  function ProcessBonusAddition(st: Store, ses: Session, tg: int, text: string): (o: Outcome)
    ensures ParseBonusInput(text).None? ==>
      o == Outcome(st, ses, [Message(tg, BadBonusFormat)], false)
    ensures ParseBonusInput(text).Some? && UserById(st.users, ParseBonusInput(text).value.0).None? ==>
      o == Outcome(st, ses, [Message(tg, UserNotFound)], false)
    ensures ParseBonusInput(text).Some? && UserById(st.users, ParseBonusInput(text).value.0).Some? ==>
      o == CreditUser(st, ses, tg, UserById(st.users, ParseBonusInput(text).value.0).value, ParseBonusInput(text).value.1)
  {
    match ParseBonusInput(text)
    case None => Reply(st, ses, tg, BadBonusFormat)
    case Some((id, amount)) =>
      match UserById(st.users, id)
      case None => Reply(st, ses, tg, UserNotFound)
      case Some(i) => CreditUser(st, ses, tg, i, amount)
  }

  /** The credit for a recorded purchase: the user's balance rises by exactly
      the cashback of the amount, nothing else changes, and both the user and
      the administrator are told the credit and the new balance. */
  function CreditUser(st: Store, ses: Session, tg: int, i: nat, amount: int): (o: Outcome)
    requires i < |st.users|
    ensures o.session == ses && !o.raised
    ensures o.store == st.(users := o.store.users)
    ensures |o.store.users| == |st.users|
    ensures forall j :: 0 <= j < |st.users| && j != i ==> o.store.users[j] == st.users[j]
    ensures o.store.users[i] == st.users[i].(balance := st.users[i].balance + Cashback(amount))
    ensures o.sent == [Message(st.users[i].telegramId, BonusReceived(Cashback(amount), o.store.users[i].balance)),
                       Message(tg, BonusCredited(Cashback(amount), o.store.users[i].balance))]
    ensures Valid(st) ==> Valid(o.store)
  {
    var u := st.users[i];
    var credit := Cashback(amount);
    var u' := u.(balance := u.balance + credit);
    Outcome(st.(users := st.users[i := u']), ses,
      [Message(u.telegramId, BonusReceived(credit, u'.balance)),
       Message(tg, BonusCredited(credit, u'.balance))], false)
  }

  /** `handle_admin_input`: typed input is processed only for an administrator
      whose `admin_action` is `'add_bonus'`; otherwise nothing happens. The
      armed action is not cleared afterwards. */
  function HandleAdminInput(st: Store, ses: Session, tg: int, text: string): (o: Outcome)
    ensures o.session == ses && !o.raised
    ensures !IsAdmin(tg) || ses.adminAction != Some("add_bonus") ==> o.store == st && o.sent == []
    ensures IsAdmin(tg) && ses.adminAction == Some("add_bonus") ==> o == ProcessBonusAddition(st, ses, tg, text)
  {
    if !IsAdmin(tg) then Silent(st, ses)
    else if ses.adminAction == Some("add_bonus") then ProcessBonusAddition(st, ses, tg, text)
    else Silent(st, ses)
  }

  /** The input `"<id> <amount>"` written with `str` parses back to that id and amount. */
  lemma BonusInputRoundTrip(id: int, amount: int)
    ensures ParseBonusInput(IntToString(id) + " " + IntToString(amount)) == Some((id, amount))
  {
    IntToStringIsWord(id);
    IntToStringIsWord(amount);
    SplitTwoWords(IntToString(id), IntToString(amount));
    ParseIntOfIntToString(id);
    ParseIntOfIntToString(amount);
  }

  /** A negative amount passes the format check and lowers the balance: the
      input "<id> <amount>" with an amount of -20 or less takes points from an
      existing user. */
  lemma NegativeBonusDebits(st: Store, ses: Session, tg: int, id: int, amount: int)
    requires UserById(st.users, id).Some?
    requires amount <= -20
    ensures var o := ProcessBonusAddition(st, ses, tg, IntToString(id) + " " + IntToString(amount));
      var i := UserById(st.users, id).value;
      o.store.users[i].balance < st.users[i].balance
  {
    BonusInputRoundTrip(id, amount);
  }
}

=== FILE: booking_handlers.dfy ===
/** Table booking: the booking button shows the expected input format; a
    registered user's "date time guests" line becomes a pending booking and
    every administrator is notified. Date and time are stored as typed. */
module BookingHandlers {
  import opened Maybe
  import opened Config
  import opened PyText
  import opened Database
  import opened Conversation

  /** `start_booking`: records `booking_step = 0` and shows the format. */
  function StartBooking(st: Store, ses: Session, tg: int): (o: Outcome)
    ensures o.store == st && !o.raised
    ensures o.session == ses.(bookingStep := Some(0))
    ensures o.session.awaitingBookingData == ses.awaitingBookingData
    ensures o.sent == [Message(tg, AskBookingData)]
  {
    Reply(st, ses.(bookingStep := Some(0)), tg, AskBookingData)
  }

  /** `date_str, time_str, guests_str = text.split()` and `int(guests_str)`;
      `None` where the handler raises `ValueError`. */
  function ParseBookingInput(text: string): (r: Option<(string, string, int)>)
    ensures r.Some? <==> |Split(text)| == 3 && ParseInt(Split(text)[2]).Some?
    ensures r.Some? ==>
      && IsWord(r.value.0) && IsWord(r.value.1)
      && Split(text)[..2] == [r.value.0, r.value.1]
      && ParseInt(Split(text)[2]) == Some(r.value.2)
  {
    var parts := Split(text);
    if |parts| != 3 then None
    else match ParseInt(parts[2])
      case None => None
      case Some(guests) => Some((parts[0], parts[1], guests))
  }

  /** `notify_admin_about_booking`: one notice to each administrator. */
  function NotifyAdminsOfBooking(u: User, b: Booking): (ms: seq<Message>)
    ensures |ms| == |AdminIds|
    ensures forall k :: 0 <= k < |ms| ==>
      ms[k] == Message(AdminIds[k], NewBookingNotice(u.id, b.date, b.time, b.guests))
  {
    seq(|AdminIds|, k requires 0 <= k < |AdminIds| =>
      Message(AdminIds[k], NewBookingNotice(u.id, b.date, b.time, b.guests)))
  }

  /** `handle_booking_data`: a registered caller's well-formed line appends
      exactly one pending booking, under the next booking id, for the caller's
      internal id; nothing else in the store changes and the session is left as
      it was. An unregistered caller or a malformed line changes nothing. The
      guest count is any integer and date and time are not checked. */
  function HandleBookingData(st: Store, ses: Session, tg: int, text: string): (o: Outcome)
    ensures o.session == ses && !o.raised
    ensures o.store.users == st.users && o.store.requests == st.requests
    ensures o.store.bookings != st.bookings <==>
      RegisteredUserByTelegram(st.users, tg).Some? && ParseBookingInput(text).Some?
    ensures RegisteredUserByTelegram(st.users, tg).None? ==> o.store == st && o.sent == [Message(tg, RegisterFirst)]
    ensures RegisteredUserByTelegram(st.users, tg).Some? && ParseBookingInput(text).None? ==>
      o.store == st && o.sent == [Message(tg, BadBookingFormat)]
    ensures o.store.bookings != st.bookings ==>
      var u := st.users[RegisteredUserByTelegram(st.users, tg).value];
      var (date, time, guests) := ParseBookingInput(text).value;
      && o.store == st.(bookings := st.bookings + [NewBooking(st.nextBookingSerial, u.id, date, time, guests)],
                        nextBookingSerial := st.nextBookingSerial + 1)
      && o.sent == NotifyAdminsOfBooking(u, o.store.bookings[|st.bookings|]) + [Message(tg, BookingAccepted(date, time, guests))]
    ensures Valid(st) ==> Valid(o.store)
  {
    match RegisteredUserByTelegram(st.users, tg)
    case None => Reply(st, ses, tg, RegisterFirst)
    case Some(i) =>
      match ParseBookingInput(text)
      case None => Reply(st, ses, tg, BadBookingFormat)
      case Some((date, time, guests)) =>
        var u := st.users[i];
        var b := NewBooking(st.nextBookingSerial, u.id, date, time, guests);
        var st' := st.(bookings := st.bookings + [b], nextBookingSerial := st.nextBookingSerial + 1);
        assert st'.bookings != st.bookings by { assert |st'.bookings| == |st.bookings| + 1; }
        var notices := NotifyAdminsOfBooking(u, b);
        Outcome(st', ses, notices + [Message(tg, BookingAccepted(date, time, guests))], false)
  }

  /** A line of two whitespace-free words and a guest count written with `str`
      parses back to those three values, whatever the sign of the count. */
  lemma BookingInputRoundTrip(date: string, time: string, guests: int)
    requires IsWord(date) && IsWord(time)
    ensures ParseBookingInput(JoinWords([date, time, IntToString(guests)])) == Some((date, time, guests))
  {
    var g := IntToString(guests);
    IntToStringIsWord(guests);
    SplitJoinWords([date, time, g]);
    ParseIntOfIntToString(guests);
  }

  /** A registered user's line `"<date> <time> <guests>"` books exactly that
      date, time and guest count for the user. */
  lemma BookingFromLine(st: Store, ses: Session, tg: int, date: string, time: string, guests: int)
    requires RegisteredUserByTelegram(st.users, tg).Some?
    requires IsWord(date) && IsWord(time)
    ensures var o := HandleBookingData(st, ses, tg, JoinWords([date, time, IntToString(guests)]));
      && |o.store.bookings| == |st.bookings| + 1
      && var b := o.store.bookings[|st.bookings|];
      && b.date == date && b.time == time && b.guests == guests && b.status == Pending
      && b.userId == st.users[RegisteredUserByTelegram(st.users, tg).value].id
  {
    BookingInputRoundTrip(date, time, guests);
  }
}

=== FILE: bot.dfy ===
/** The bot as a whole: one store shared by every chat, one `user_data`
    session per Telegram identity, and each update handled by the handler it
    is addressed to. Which command or button reaches which handler is decided
    by the application's wiring, which is not part of this model; an event
    here names its handler directly. */
module Bot {
  import opened Database
  import opened Conversation
  import UserHandlers
  import RedemptionHandlers
  import AdminHandlers
  import BookingHandlers
  import BroadcastHandlers

  /** An update from the Telegram identity `tg`, by the handler it reaches. */
  datatype Event =
    | StartCommand(tg: int)
    | Text(tg: int, text: string)
    | ConfirmRegistration(tg: int)
    | EditRegistration(tg: int)
    | StartRedemption(tg: int)
    | RedemptionDecision(tg: int, data: string)
    | AdminCommand(tg: int)
    | AdminButton(tg: int, data: string)
    | AdminText(tg: int, text: string)
    | StartBooking(tg: int)
    | BookingText(tg: int, text: string)
    | StartBroadcast(tg: int)
    | BroadcastContent(tg: int, content: Content, ok: (int, Send) -> bool)

  /** The shared store and the sessions of every identity seen so far. */
  datatype World = World(store: Store, sessions: map<int, Session>)

  /** A freshly started bot over freshly created tables. */
  const Initial := World(EmptyStore, map[])

  function SessionOf(w: World, tg: int): Session
  {
    if tg in w.sessions then w.sessions[tg] else EmptySession
  }

  /** The handler's outcome for one update. */
  function Handle(st: Store, ses: Session, e: Event): Outcome
  {
    match e
    case StartCommand(tg) => UserHandlers.Start(st, ses, tg)
    case Text(tg, text) => UserHandlers.HandleAllMessages(st, ses, tg, text)
    case ConfirmRegistration(tg) => UserHandlers.HandleRegistration(st, ses, tg)
    case EditRegistration(tg) => UserHandlers.EditRegistration(st, ses, tg)
    case StartRedemption(tg) => RedemptionHandlers.StartRedemption(st, ses, tg)
    case RedemptionDecision(tg, data) => RedemptionHandlers.HandleAdminRedemption(st, ses, tg, data)
    case AdminCommand(tg) => AdminHandlers.AdminPanelCommand(st, ses, tg)
    case AdminButton(tg, data) => AdminHandlers.HandleAdminAction(st, ses, tg, data)
    case AdminText(tg, text) => AdminHandlers.HandleAdminInput(st, ses, tg, text)
    case StartBooking(tg) => BookingHandlers.StartBooking(st, ses, tg)
    case BookingText(tg, text) => BookingHandlers.HandleBookingData(st, ses, tg, text)
    case StartBroadcast(tg) => BroadcastHandlers.StartBroadcast(st, ses, tg)
    case BroadcastContent(tg, content, ok) => BroadcastHandlers.HandleBroadcastContent(st, ses, tg, content, ok)
  }

  /** One update: the store after the handler, and the sender's session as
      the handler left it; every other identity's session is untouched. */
  function Step(w: World, e: Event): (w': World)
    ensures w'.store == Handle(w.store, SessionOf(w, e.tg), e).store
    ensures SessionOf(w', e.tg) == Handle(w.store, SessionOf(w, e.tg), e).session
    ensures forall t :: t != e.tg ==> SessionOf(w', t) == SessionOf(w, t)
  {
    var o := Handle(w.store, SessionOf(w, e.tg), e);
    World(o.store, w.sessions[e.tg := o.session])
  }

  /** A sequence of updates handled one after another. */
  function Run(w: World, es: seq<Event>): World
    decreases |es|
  {
    if |es| == 0 then w else Run(Step(w, es[0]), es[1..])
  }

  // ---------------------------------------------------------------------
  // Store constraints

  /** Every handler keeps the table constraints. */
  lemma HandleValid(st: Store, ses: Session, e: Event)
    requires Valid(st)
    ensures Valid(Handle(st, ses, e).store)
  {
  }

  /** The table constraints hold after any run from a valid store; in
      particular no two users ever share a Telegram identity or an id. */
  lemma {:induction false} RunValid(w: World, es: seq<Event>)
    requires Valid(w.store)
    ensures Valid(Run(w, es).store)
    decreases |es|
  {
    if |es| > 0 {
      HandleValid(w.store, SessionOf(w, es[0].tg), es[0]);
      RunValid(Step(w, es[0]), es[1..]);
    }
  }

  /** Every store a freshly started bot reaches satisfies the constraints. */
  lemma ReachableValid(es: seq<Event>)
    ensures Valid(Run(Initial, es).store)
  {
    RunValid(Initial, es);
  }

  // ---------------------------------------------------------------------
  // Session flags

  /** The flag `awaiting_booking_data` is set in no session. */
  predicate NoBookingPrompt(w: World)
  {
    forall t :: t in w.sessions ==> !w.sessions[t].awaitingBookingData
  }

  /** No handler sets `awaiting_booking_data`. */
  lemma HandleNoBookingPrompt(st: Store, ses: Session, e: Event)
    requires !ses.awaitingBookingData
    ensures !Handle(st, ses, e).session.awaitingBookingData
  {
  }

  lemma StepNoBookingPrompt(w: World, e: Event)
    requires NoBookingPrompt(w)
    ensures NoBookingPrompt(Step(w, e))
  {
    HandleNoBookingPrompt(w.store, SessionOf(w, e.tg), e);
    var w' := Step(w, e);
    forall t | t in w'.sessions
      ensures !w'.sessions[t].awaitingBookingData
    {
      assert SessionOf(w', t) == w'.sessions[t];
    }
  }

  /** From a freshly started bot, text is never routed to the booking input:
      the flag that would route it is never set. */
  lemma {:induction false} BookingTextUnreachable(w: World, es: seq<Event>, t: int)
    requires NoBookingPrompt(w)
    ensures NoBookingPrompt(Run(w, es))
    ensures UserHandlers.RouteText(SessionOf(Run(w, es), t)) != UserHandlers.ToBooking
    decreases |es|
  {
    if |es| > 0 {
      StepNoBookingPrompt(w, es[0]);
      BookingTextUnreachable(Step(w, es[0]), es[1..], t);
    }
  }

  /** No handler clears a registration step once set. */
  lemma HandleKeepsRegistrationStep(st: Store, ses: Session, e: Event)
    requires ses.registrationStep.Some?
    ensures Handle(st, ses, e).session.registrationStep.Some?
  {
  }

  /** Once an identity has a registration step, which first contact with
      `/start` gives it, every later text message of theirs is read as a
      registration answer, whatever prompt was armed since. */
  lemma {:induction false} TextStaysWithRegistration(w: World, es: seq<Event>, t: int)
    requires SessionOf(w, t).registrationStep.Some?
    ensures UserHandlers.RouteText(SessionOf(Run(w, es), t)) == UserHandlers.ToRegistration
    decreases |es|
  {
    if |es| > 0 {
      if t == es[0].tg {
        HandleKeepsRegistrationStep(w.store, SessionOf(w, t), es[0]);
      }
      TextStaysWithRegistration(Step(w, es[0]), es[1..], t);
    }
  }
}

=== FILE: broadcast_handlers.dfy ===
/** Broadcast: an administrator arms the broadcast, and the next message they
    send is copied to every registered user. A recipient whose send call fails
    (for instance because they blocked the bot) is skipped; the administrator is
    told how many recipients were counted as reached. Whether a send call
    succeeds is outside the model and is given as the oracle `ok`. */
module BroadcastHandlers {
  import opened Maybe
  import opened Config
  import opened Database
  import opened Conversation

  /** `start_broadcast`: arms the broadcast for an administrator, refuses anyone else. */
  function StartBroadcast(st: Store, ses: Session, tg: int): (o: Outcome)
    ensures o.store == st && !o.raised
    ensures IsAdmin(tg) ==> o.session == ses.(awaitingBroadcast := true) && o.sent == [Message(tg, AskBroadcastContent)]
    ensures !IsAdmin(tg) ==> o.session == ses && o.sent == [Message(tg, AccessDenied)]
  {
    if !IsAdmin(tg) then Reply(st, ses, tg, AccessDenied)
    else Reply(st, ses.(awaitingBroadcast := true), tg, AskBroadcastContent)
  }

  /** Python truthiness of `message.text`: present and not empty. */
  predicate HasText(c: Content)
  {
    c.text.Some? && c.text.value != ""
  }

  /** The call the broadcast loop makes per recipient: the text if there is
      any, else the largest photo size with the caption, else the video with
      the caption, else no call at all. */
  function SendFor(c: Content): (s: Send)
    ensures s.SendText? <==> HasText(c)
    ensures s.SendText? ==> s.text == c.text.value
    ensures s.SendPhoto? <==> !HasText(c) && |c.photos| > 0
    ensures s.SendPhoto? ==> s.photo == c.photos[|c.photos| - 1] && s.caption == c.caption
    ensures s.SendVideo? <==> !HasText(c) && |c.photos| == 0 && c.video.Some?
    ensures s.SendVideo? ==> s.video == c.video.value && s.caption == c.caption
  {
    if HasText(c) then SendText(c.text.value)
    else if |c.photos| > 0 then SendPhoto(c.photos[|c.photos| - 1], c.caption)
    else if c.video.Some? then SendVideo(c.video.value, c.caption)
    else NoSend
  }

  /** A recipient is counted when no call is made, or when the call succeeds. */
  predicate Counted(chat: int, send: Send, ok: (int, Send) -> bool)
  {
    send.NoSend? || ok(chat, send)
  }

  /** The recipients counted in `sent_count`, in order. */
  function Delivered(recipients: seq<User>, send: Send, ok: (int, Send) -> bool): (r: seq<User>)
    ensures |r| <= |recipients|
  {
    if |recipients| == 0 then []
    else
      var n := |recipients| - 1;
      var last := recipients[n];
      Delivered(recipients[..n], send, ok) + (if Counted(last.telegramId, send, ok) then [last] else [])
  }

  /** The counted recipients are exactly the recipients whose copy did not
      fail, and all of them when none fails. */
  lemma {:induction false} DeliveredMembers(recipients: seq<User>, send: Send, ok: (int, Send) -> bool)
    ensures forall u :: u in Delivered(recipients, send, ok) ==> u in recipients && Counted(u.telegramId, send, ok)
    ensures forall k :: 0 <= k < |recipients| && Counted(recipients[k].telegramId, send, ok) ==>
      recipients[k] in Delivered(recipients, send, ok)
    ensures (forall k :: 0 <= k < |recipients| ==> Counted(recipients[k].telegramId, send, ok)) ==>
      Delivered(recipients, send, ok) == recipients
  {
    if |recipients| > 0 {
      var n := |recipients| - 1;
      var init := recipients[..n];
      var last := recipients[n];
      DeliveredMembers(init, send, ok);
      assert recipients == init + [last];
      var d := Delivered(recipients, send, ok);
      assert d == Delivered(init, send, ok) + (if Counted(last.telegramId, send, ok) then [last] else []);
      forall k | 0 <= k < |recipients| && Counted(recipients[k].telegramId, send, ok)
        ensures recipients[k] in d
      {
        if k < n {
          assert recipients[k] == init[k];
        }
      }
    }
  }

  /** The copies actually sent: one per counted recipient, none when no call is made. */
  function Copies(delivered: seq<User>, send: Send): (ms: seq<Message>)
    ensures send.NoSend? ==> ms == []
    ensures !send.NoSend? ==> |ms| == |delivered|
    ensures forall k :: 0 <= k < |ms| ==> ms[k] == Message(delivered[k].telegramId, BroadcastCopy(send))
  {
    if send.NoSend? then []
    else seq(|delivered|, k requires 0 <= k < |delivered| => Message(delivered[k].telegramId, BroadcastCopy(send)))
  }

  /** One more recipient extends the counted recipients by at most that recipient. */
  lemma DeliveredSnoc(recipients: seq<User>, i: nat, send: Send, ok: (int, Send) -> bool)
    requires i < |recipients|
    ensures Delivered(recipients[..i + 1], send, ok)
         == Delivered(recipients[..i], send, ok)
            + (if Counted(recipients[i].telegramId, send, ok) then [recipients[i]] else [])
  {
    assert recipients[..i + 1][..i] == recipients[..i];
  }

  /** One more counted recipient adds its copy at the end, when a call is made. */
  lemma CopiesSnoc(delivered: seq<User>, u: User, send: Send)
    ensures Copies(delivered + [u], send)
         == Copies(delivered, send) + (if send.NoSend? then [] else [Message(u.telegramId, BroadcastCopy(send))])
  {
  }

  /** The broadcast loop itself: one attempt per recipient, counting those
      that do not fail. */
  method SendToAll(recipients: seq<User>, send: Send, ok: (int, Send) -> bool) returns (sent: seq<Message>, count: nat)
    ensures count == |Delivered(recipients, send, ok)| <= |recipients|
    ensures sent == Copies(Delivered(recipients, send, ok), send)
  {
    sent, count := [], 0;
    var i := 0;
    while i < |recipients|
      invariant 0 <= i <= |recipients|
      invariant count == |Delivered(recipients[..i], send, ok)|
      invariant sent == Copies(Delivered(recipients[..i], send, ok), send)
    {
      var u := recipients[i];
      DeliveredSnoc(recipients, i, send, ok);
      CopiesSnoc(Delivered(recipients[..i], send, ok), u, send);
      if Counted(u.telegramId, send, ok) {
        if !send.NoSend? {
          sent := sent + [Message(u.telegramId, BroadcastCopy(send))];
        }
        count := count + 1;
      }
      i := i + 1;
    }
    assert recipients[..i] == recipients;
  }

  /** `handle_broadcast_content`: for an administrator with the broadcast armed,
      the content goes to every registered user, the count of recipients not
      failing is reported, and the broadcast is disarmed; otherwise nothing
      happens and the flag is left as it was. The store is only read. */
  function HandleBroadcastContent(st: Store, ses: Session, tg: int, c: Content, ok: (int, Send) -> bool): (o: Outcome)
    ensures o.store == st && !o.raised
    ensures !IsAdmin(tg) || !ses.awaitingBroadcast ==> o.session == ses && o.sent == []
    ensures IsAdmin(tg) && ses.awaitingBroadcast ==>
      var registered := RegisteredUsers(st.users);
      var d := Delivered(registered, SendFor(c), ok);
      && o.session == ses.(awaitingBroadcast := false)
      && |o.sent| > 0
      && o.sent[|o.sent| - 1] == Message(tg, BroadcastDone(|d|))
      && |d| <= |registered|
      && o.sent[..|o.sent| - 1] == Copies(d, SendFor(c))
  {
    if !IsAdmin(tg) || !ses.awaitingBroadcast then Silent(st, ses)
    else
      var send := SendFor(c);
      var d := Delivered(RegisteredUsers(st.users), send, ok);
      Outcome(st, ses.(awaitingBroadcast := false), Copies(d, send) + [Message(tg, BroadcastDone(|d|))], false)
  }

  /** Every copy a broadcast sends goes to the chat of a registered user whose
      send call succeeded, and carries the content's send call. */
  lemma BroadcastCopiesGoToRegistered(st: Store, ses: Session, tg: int, c: Content, ok: (int, Send) -> bool)
    requires IsAdmin(tg) && ses.awaitingBroadcast
    ensures var o := HandleBroadcastContent(st, ses, tg, c, ok);
      forall k :: 0 <= k < |o.sent| - 1 ==>
        && o.sent[k].body == BroadcastCopy(SendFor(c))
        && ok(o.sent[k].chat, SendFor(c))
        && exists u :: u in st.users && u.registrationComplete && u.telegramId == o.sent[k].chat
  {
    var o := HandleBroadcastContent(st, ses, tg, c, ok);
    var registered := RegisteredUsers(st.users);
    var d := Delivered(registered, SendFor(c), ok);
    DeliveredMembers(registered, SendFor(c), ok);
    forall k | 0 <= k < |o.sent| - 1
      ensures o.sent[k].body == BroadcastCopy(SendFor(c))
      ensures ok(o.sent[k].chat, SendFor(c))
      ensures exists u :: u in st.users && u.registrationComplete && u.telegramId == o.sent[k].chat
    {
      assert o.sent[k] == o.sent[..|o.sent| - 1][k];
      assert d[k] in d;
    }
  }

  /** A message with no text, photo or video sends nothing, yet every
      registered user is counted as reached. */
  lemma EmptyContentCountsEveryone(st: Store, ses: Session, tg: int, c: Content, ok: (int, Send) -> bool)
    requires IsAdmin(tg) && ses.awaitingBroadcast
    requires !HasText(c) && |c.photos| == 0 && c.video.None?
    ensures HandleBroadcastContent(st, ses, tg, c, ok).sent == [Message(tg, BroadcastDone(|RegisteredUsers(st.users)|))]
  {
    DeliveredMembers(RegisteredUsers(st.users), NoSend, ok);
  }

  /** When every send call succeeds the count is the number of registered users. */
  lemma BroadcastReachesAll(st: Store, ses: Session, tg: int, c: Content, ok: (int, Send) -> bool)
    requires IsAdmin(tg) && ses.awaitingBroadcast
    requires forall chat, s :: ok(chat, s)
    ensures var o := HandleBroadcastContent(st, ses, tg, c, ok);
      o.sent[|o.sent| - 1] == Message(tg, BroadcastDone(|RegisteredUsers(st.users)|))
  {
    DeliveredMembers(RegisteredUsers(st.users), SendFor(c), ok);
  }

  /** The three registered users of the scenario below. */
  const ThreeUsers: seq<User> :=
    [User(1, 11, None, None, None, 100, true),
     User(2, 12, None, None, None, 100, true),
     User(3, 13, None, None, None, 100, true)]

  lemma ThreeUsersDelivered(ok: (int, Send) -> bool, send: Send)
    requires !send.NoSend?
    requires ok(11, send) && !ok(12, send) && ok(13, send)
    ensures Delivered(ThreeUsers, send, ok) == [ThreeUsers[0], ThreeUsers[2]]
    ensures Copies(Delivered(ThreeUsers, send, ok), send) == [Message(11, BroadcastCopy(send)), Message(13, BroadcastCopy(send))]
  {
    var users := ThreeUsers;
    DeliveredSnoc(users, 0, send, ok);
    DeliveredSnoc(users, 1, send, ok);
    DeliveredSnoc(users, 2, send, ok);
    assert users[..0] == [] && users[..3] == users;
    CopiesSnoc([users[0]], users[2], send);
    CopiesSnoc([], users[0], send);
  }

  /** Three registered users, the second of whom has blocked the bot: the text
      reaches the other two and two are reported. */
  lemma BroadcastSkipsBlocked(ok: (int, Send) -> bool)
    requires ok(11, SendText("hi")) && !ok(12, SendText("hi")) && ok(13, SendText("hi"))
    ensures var o := HandleBroadcastContent(EmptyStore.(users := ThreeUsers), EmptySession.(awaitingBroadcast := true),
                                            AdminIds[0], Content(Some("hi"), [], None, None), ok);
      o.sent == [Message(11, BroadcastCopy(SendText("hi"))),
                 Message(13, BroadcastCopy(SendText("hi"))),
                 Message(AdminIds[0], BroadcastDone(2))]
  {
    var send := SendText("hi");
    var c := Content(Some("hi"), [], None, None);
    assert HasText(c) && SendFor(c) == send;
    RegisteredUsersOfRegistered(ThreeUsers);
    ThreeUsersDelivered(ok, send);
    var d := Delivered(ThreeUsers, send, ok);
    assert |d| == 2;
    assert IsAdmin(AdminIds[0]);
    var o := HandleBroadcastContent(EmptyStore.(users := ThreeUsers), EmptySession.(awaitingBroadcast := true), AdminIds[0], c, ok);
    assert o.sent == Copies(d, send) + [Message(AdminIds[0], BroadcastDone(2))];
  }
}

=== FILE: config.dfy ===
/** The fixed configuration the handlers read: the administrator allow-list and
    the literal constants written into the handlers. */
module Config {

  /** `config.ADMIN_IDS`: Telegram identities allowed into the admin entry points. */
  const AdminIds: seq<int> := [123456789]

  /** Points written over the balance when a registration is confirmed. */
  const WelcomeBonus: int := 100

  /** Upper end of the internal id pool `1..MaxUserId`. */
  const MaxUserId: int := 3000

  /** Percentage of a recorded purchase credited by the admin bonus input. */
  const CashbackPercent: int := 5

  /** Number of registered users listed by the admin users view. */
  const UsersShown: nat := 10

  predicate IsAdmin(telegramId: int)
  {
    telegramId in AdminIds
  }
}

=== FILE: conversation.dfy ===
/** The per-user dialogue state (`context.user_data`), the messages a handler
    sends, and the result every handler step returns. Message texts are not
    modelled. A message body keeps the data its text is built from, except
    that the administrators' redemption and booking notices drop the user's
    names and phone, and the bonus confirmation drops the names. */
module Conversation {
  import opened Maybe
  import opened Database

  /** The keys of `context.user_data` the handlers read or write. An absent key
      is `None` (or `false` for the flags, which the handlers only test for truth). */
  datatype Session = Session(
    registrationStep: Option<nat>,
    firstName: Option<string>,
    lastName: Option<string>,
    phone: Option<string>,
    awaitingRedemptionAmount: bool,
    awaitingBookingData: bool,
    bookingStep: Option<nat>,
    adminAction: Option<string>,
    awaitingBroadcast: bool)

  /** The `user_data` of a user the bot has not talked to yet. */
  const EmptySession := Session(None, None, None, None, false, false, None, None, false)

  /** The parts of an incoming message a broadcast can copy: its text, the
      file ids of its photo sizes (largest last), its video's file id and its
      caption. */
  datatype Content = Content(
    text: Option<string>,
    photos: seq<string>,
    video: Option<string>,
    caption: Option<string>)

  /** The one send call a broadcast makes per recipient, or none at all. */
  datatype Send =
    | SendText(text: string)
    | SendPhoto(photo: string, caption: Option<string>)
    | SendVideo(video: string, caption: Option<string>)
    | NoSend

  /** The content of one outgoing message. */
  datatype Body =
    // registration
    | MainMenu(name: Option<string>)
    | CompleteRegistration
    | Welcome
    | AskField(field: nat)
    | Summary(first: Option<string>, last: Option<string>, phone: Option<string>)
    | Registered(id: int, first: Option<string>, last: Option<string>, phone: Option<string>)
    | RegistrationRestarted
    | UseMenu
    // redemption
    | AskRedemptionAmount(balance: int)
    | RedemptionRequested(userId: int, amount: int, balance: int, confirmData: string, rejectData: string)
    | RedemptionSubmitted(amount: int)
    | NotEnoughPoints
    | EnterNumber
    | PointsDebited(amount: int, balance: int)
    | RedemptionApproved
    | RedemptionRejected
    // admin
    | AccessDenied
    | AdminPanel
    | NoRegisteredUsers
    | UsersList(shown: seq<User>, more: Option<nat>)
    | AskBonusInput
    | BonusReceived(credit: int, balance: int)
    | BonusCredited(credit: int, balance: int)
    | UserNotFound
    | BadBonusFormat
    // booking
    | AskBookingData
    | RegisterFirst
    | NewBookingNotice(userId: int, date: string, time: string, guests: int)
    | BookingAccepted(date: string, time: string, guests: int)
    | BadBookingFormat
    // broadcast
    | AskBroadcastContent
    | BroadcastCopy(send: Send)
    | BroadcastDone(sent: nat)

  /** A message sent to the chat `chat`. */
  datatype Message = Message(chat: int, body: Body)

  /** What one handler invocation leaves behind: the store after its commit (or
      unchanged when nothing was committed), the caller's `user_data`, the
      messages it sent in order, and whether it ended by raising an exception. */
  datatype Outcome = Outcome(store: Store, session: Session, sent: seq<Message>, raised: bool)

  /** A handler step that changes nothing and sends nothing. */
  function Silent(st: Store, ses: Session): Outcome
  {
    Outcome(st, ses, [], false)
  }

  /** One message to the acting user, nothing else changed. */
  function Reply(st: Store, ses: Session, chat: int, body: Body): Outcome
  {
    Outcome(st, ses, [Message(chat, body)], false)
  }
}

=== FILE: database.dfy ===
/** The three tables of the store (`users`, `bookings`, `redemption_requests`)
    as immutable rows, with the lookups the handlers issue against them. The
    store also carries the three primary-key sequences the database draws new
    row ids from. */
module Database {
  import opened Maybe

  /** Redemption request and booking status; the column default is `Pending`. */
  datatype Status = Pending | Approved | Rejected

  /** A row of `users`. `id` is the internal id (the primary key, reassigned
      from the pool 1..3000 at registration), `telegramId` the chat identity. */
  datatype User = User(
    id: int,
    telegramId: int,
    firstName: Option<string>,
    lastName: Option<string>,
    phone: Option<string>,
    balance: int,
    registrationComplete: bool)

  /** A row of `bookings`; date and time are stored as typed by the user. */
  datatype Booking = Booking(
    id: int,
    userId: int,
    date: string,
    time: string,
    guests: int,
    status: Status)

  /** A row of `redemption_requests`. */
  datatype RedemptionRequest = RedemptionRequest(
    id: int,
    userId: int,
    amount: int,
    status: Status)

  /** The tables in row order, and the next value of each primary-key sequence. */
  datatype Store = Store(
    users: seq<User>,
    bookings: seq<Booking>,
    requests: seq<RedemptionRequest>,
    nextUserSerial: int,
    nextBookingSerial: int,
    nextRequestSerial: int)

  /** The freshly created tables: empty, every sequence starting at 1. */
  const EmptyStore := Store([], [], [], 1, 1, 1)

  /** A user row as `User(telegram_id=...)` inserts it: every column at its default. */
  function NewUser(id: int, telegramId: int): User
  {
    User(id, telegramId, None, None, None, 0, false)
  }

  /** A booking row as the booking handler inserts it; the status column takes its default. */
  function NewBooking(id: int, userId: int, date: string, time: string, guests: int): Booking
  {
    Booking(id, userId, date, time, guests, Pending)
  }

  /** A request row as the redemption handler inserts it; the status column takes its default. */
  function NewRequest(id: int, userId: int, amount: int): RedemptionRequest
  {
    RedemptionRequest(id, userId, amount, Pending)
  }

  // ---------------------------------------------------------------------
  // Lookups: `query(...).filter(...).first()`

  /** Position of the first element satisfying `p`, if any. */
  function FindFirst<T>(s: seq<T>, p: T -> bool): (r: Option<nat>)
    ensures r.Some? ==> r.value < |s| && p(s[r.value])
    ensures r.Some? ==> forall j :: 0 <= j < r.value ==> !p(s[j])
    ensures r.None? ==> forall j :: 0 <= j < |s| ==> !p(s[j])
  {
    if |s| == 0 then None
    else if p(s[0]) then Some(0)
    else match FindFirst(s[1..], p)
      case None => None
      case Some(k) => Some(k + 1)
  }

  /** `query(User).filter(User.telegram_id == tg).first()` */
  function UserByTelegram(users: seq<User>, tg: int): (r: Option<nat>)
    ensures r.Some? ==> r.value < |users| && users[r.value].telegramId == tg
    ensures r.None? ==> forall j :: 0 <= j < |users| ==> users[j].telegramId != tg
  {
    FindFirst(users, (u: User) => u.telegramId == tg)
  }

  /** `query(User).filter(User.id == id).first()` */
  function UserById(users: seq<User>, id: int): (r: Option<nat>)
    ensures r.Some? ==> r.value < |users| && users[r.value].id == id
    ensures r.None? ==> forall j :: 0 <= j < |users| ==> users[j].id != id
  {
    FindFirst(users, (u: User) => u.id == id)
  }

  /** `query(User).filter(User.telegram_id == tg, User.registration_complete == True).first()` */
  function RegisteredUserByTelegram(users: seq<User>, tg: int): (r: Option<nat>)
    ensures r.Some? ==>
      r.value < |users| && users[r.value].telegramId == tg && users[r.value].registrationComplete
    ensures r.None? ==> forall j :: 0 <= j < |users| ==>
      users[j].telegramId != tg || !users[j].registrationComplete
  {
    FindFirst(users, (u: User) => u.telegramId == tg && u.registrationComplete)
  }

  /** `query(RedemptionRequest).filter(RedemptionRequest.id == id).first()` */
  function RequestById(requests: seq<RedemptionRequest>, id: int): (r: Option<nat>)
    ensures r.Some? ==> r.value < |requests| && requests[r.value].id == id
    ensures r.None? ==> forall j :: 0 <= j < |requests| ==> requests[j].id != id
  {
    FindFirst(requests, (q: RedemptionRequest) => q.id == id)
  }

  /** `query(User).filter(User.registration_complete == True).all()`: the
      registered rows, each as often as the table holds it, taken in row order. */
  function RegisteredUsers(users: seq<User>): (r: seq<User>)
    ensures |r| <= |users|
    ensures forall k :: 0 <= k < |r| ==> r[k].registrationComplete && r[k] in users
    ensures forall u :: u in users && u.registrationComplete ==> u in r
    ensures forall u :: multiset(r)[u] == if u.registrationComplete then multiset(users)[u] else 0
  {
    if |users| == 0 then []
    else
      var rest := RegisteredUsers(users[1..]);
      assert users == [users[0]] + users[1..];
      assert multiset(users) == multiset([users[0]]) + multiset(users[1..]);
      if users[0].registrationComplete then
        assert multiset([users[0]] + rest) == multiset([users[0]]) + multiset(rest);
        [users[0]] + rest
      else rest
  }

  /** When every row is registered the query returns the whole table. */
  lemma {:induction false} RegisteredUsersOfRegistered(users: seq<User>)
    requires forall k :: 0 <= k < |users| ==> users[k].registrationComplete
    ensures RegisteredUsers(users) == users
  {
    if |users| > 0 {
      RegisteredUsersOfRegistered(users[1..]);
      assert users == [users[0]] + users[1..];
    }
  }

  // ---------------------------------------------------------------------
  // Table constraints

  /** `telegram_id` is declared unique. */
  predicate UniqueTelegramIds(users: seq<User>)
  {
    forall i, j :: 0 <= i < j < |users| ==> users[i].telegramId != users[j].telegramId
  }

  /** `id` is the primary key. */
  predicate UniqueUserIds(users: seq<User>)
  {
    forall i, j :: 0 <= i < j < |users| ==> users[i].id != users[j].id
  }

  /** Booking ids come from their sequence: increasing in row order, all below the next value. */
  predicate BookingIdsFromSerial(st: Store)
  {
    && (forall i, j :: 0 <= i < j < |st.bookings| ==> st.bookings[i].id < st.bookings[j].id)
    && (forall i :: 0 <= i < |st.bookings| ==> st.bookings[i].id < st.nextBookingSerial)
  }

  /** Request ids come from their sequence: increasing in row order, all below the next value. */
  predicate RequestIdsFromSerial(st: Store)
  {
    && (forall i, j :: 0 <= i < j < |st.requests| ==> st.requests[i].id < st.requests[j].id)
    && (forall i :: 0 <= i < |st.requests| ==> st.requests[i].id < st.nextRequestSerial)
  }

  /** The constraints the database enforces or its sequences guarantee. */
  predicate Valid(st: Store)
  {
    && UniqueTelegramIds(st.users)
    && UniqueUserIds(st.users)
    && BookingIdsFromSerial(st)
    && RequestIdsFromSerial(st)
  }

  /** Appending a request under the next value of its sequence, which then
      advances, keeps the constraints. */
  lemma AppendRequestValid(st: Store, req: RedemptionRequest)
    requires Valid(st) && req.id == st.nextRequestSerial
    ensures Valid(st.(requests := st.requests + [req], nextRequestSerial := st.nextRequestSerial + 1))
  {
  }
}

=== FILE: id_pool.dfy ===
/** Internal id allocation at registration confirmation: the largest id in use
    within the pool `1..MaxUserId` plus one, or, once that would leave the pool,
    the smallest id in the pool no row holds. The rows searched include the
    caller's own row under the id the database gave it on first contact. */
module IdPool {
  import opened Maybe
  import opened Config
  import opened Database

  predicate InPool(id: int)
  {
    1 <= id <= MaxUserId
  }

  /** `{u.id for u in users if 1 <= u.id <= 3000}` */
  function PoolIds(users: seq<User>): set<int>
  {
    set i | 0 <= i < |users| && InPool(users[i].id) :: users[i].id
  }

  /** The top id of the pool is held by no row. */
  predicate TopFree(users: seq<User>)
  {
    forall i :: 0 <= i < |users| ==> users[i].id != MaxUserId
  }

  /** The largest id in the pool held by some row, `None` when the pool is unused. */
  function MaxPoolId(users: seq<User>): (m: Option<int>)
    ensures m.None? <==> forall i :: 0 <= i < |users| ==> !InPool(users[i].id)
    ensures m.Some? ==> InPool(m.value) && m.value in PoolIds(users)
    ensures m.Some? ==> forall i :: 0 <= i < |users| && InPool(users[i].id) ==> users[i].id <= m.value
  {
    if |users| == 0 then None
    else
      var rest := MaxPoolId(users[1..]);
      var id := users[0].id;
      assert forall i :: 1 <= i < |users| ==> users[i] == users[1..][i - 1];
      assert rest.Some? ==> rest.value in PoolIds(users);
      if !InPool(id) then rest
      else if rest.Some? && rest.value >= id then rest
      else
        assert id in PoolIds(users);
        Some(id)
  }

  /** `next(i for i in range(k, 3001) if i not in used)`, `None` where `next` raises. */
  function SmallestFree(used: set<int>, k: int): (r: Option<int>)
    requires 1 <= k
    ensures r.Some? ==> k <= r.value <= MaxUserId && r.value !in used
    ensures r.Some? ==> forall j :: k <= j < r.value ==> j in used
    ensures r.None? ==> forall j :: k <= j <= MaxUserId ==> j in used
    decreases MaxUserId - k
  {
    if k > MaxUserId then None
    else if k !in used then Some(k)
    else SmallestFree(used, k + 1)
  }

  /** The id a confirmed registration receives: always a pool id; `None`
      (`StopIteration`) only when every pool id is taken. */
  function AllocateId(users: seq<User>): (r: Option<int>)
    ensures r.Some? ==> InPool(r.value)
    ensures r.None? ==> forall id :: InPool(id) ==> id in PoolIds(users)
  {
    var candidate := match MaxPoolId(users)
      case None => 1
      case Some(m) => m + 1;
    if candidate > MaxUserId then SmallestFree(PoolIds(users), 1) else Some(candidate)
  }

  /** Whenever some pool id is free, the allocated id is in the pool and held by
      no row; the allocation fails exactly when every pool id is held. */
  lemma AllocateIdFresh(users: seq<User>)
    ensures AllocateId(users).Some? ==>
      InPool(AllocateId(users).value)
      && forall i :: 0 <= i < |users| ==> users[i].id != AllocateId(users).value
    ensures AllocateId(users).None? <==> forall id :: InPool(id) ==> id in PoolIds(users)
  {
    var r := AllocateId(users);
    var m := MaxPoolId(users);
    if r.Some? {
      var id := r.value;
      if m.Some? && m.value + 1 <= MaxUserId {
        assert id == m.value + 1;
        forall i | 0 <= i < |users|
          ensures users[i].id != id
        {
          if InPool(users[i].id) {
            assert users[i].id <= m.value;
          }
        }
      } else if m.None? {
        assert id == 1;
      } else {
        forall i | 0 <= i < |users|
          ensures users[i].id != id
        {
          assert InPool(users[i].id) ==> users[i].id in PoolIds(users);
        }
      }
      assert id !in PoolIds(users);
    } else {
      assert m.Some? && m.value + 1 > MaxUserId;
    }
    if forall id :: InPool(id) ==> id in PoolIds(users) {
      assert MaxUserId in PoolIds(users);
      var k :| 0 <= k < |users| && InPool(users[k].id) && users[k].id == MaxUserId;
      assert m.Some? && m.value == MaxUserId;
    }
  }

  /** While the top id is free the allocation is one past the largest pool id in
      use (1 for an unused pool); once the top id is held it is the smallest
      free pool id. */
  lemma AllocateIdChoice(users: seq<User>)
    ensures TopFree(users) ==>
      && AllocateId(users).Some?
      && (forall i :: 0 <= i < |users| && InPool(users[i].id) ==> users[i].id < AllocateId(users).value)
      && (AllocateId(users).value == 1 || AllocateId(users).value - 1 in PoolIds(users))
    ensures !TopFree(users) && AllocateId(users).Some? ==>
      forall j :: 1 <= j < AllocateId(users).value ==> j in PoolIds(users)
  {
    var m := MaxPoolId(users);
    if TopFree(users) && m.Some? {
      assert m.value != MaxUserId;
    }
    if !TopFree(users) {
      var k :| 0 <= k < |users| && users[k].id == MaxUserId;
      assert InPool(users[k].id);
      assert m.Some? && m.value == MaxUserId;
    }
  }
}

=== FILE: maybe.dfy ===
/** The optional value the handlers read out of `context.user_data.get(...)`
    and out of `query(...).first()`: a value that may be absent (Python `None`). */
module Maybe {

  datatype Option<+T> = None | Some(value: T) {

    /** The value when present, otherwise `default` (Python's `dict.get(key, default)`). */
    function GetOr(default: T): T
    {
      match this
      case Some(v) => v
      case None => default
    }
  }
}

=== FILE: pytext.dfy ===
/** The three pieces of Python string handling the handlers depend on:
    `str.split()` (whitespace tokens), `str.split(sep)` (one-character
    separator, empty fields kept) and `int(text)` in base 10, together with
    `str(n)`, which builds the callback payloads. */
module PyText {
  import opened Maybe

  /** `str.isspace()` for one character: the ASCII controls 9..13 and 28..31,
      the space, and the Unicode separators Python counts as whitespace. */
  predicate IsSpace(c: char)
  {
    || c == ' '
    || ('\t' <= c <= '\r')
    || ('\U{1C}' <= c <= '\U{1F}')
    || c == '\U{85}' || c == '\U{A0}' || c == '\U{1680}'
    || ('\U{2000}' <= c <= '\U{200A}')
    || c == '\U{2028}' || c == '\U{2029}' || c == '\U{202F}'
    || c == '\U{205F}' || c == '\U{3000}'
  }

  /** The whitespace `int()` skips around a literal. CPython hands characters
      below U+007F unchanged to its ASCII parser, which skips only the space
      and `\t`..`\r`; other whitespace is first turned into a space. So this
      is `str.isspace()` without the separators U+001C..U+001F. */
  predicate IsIntSpace(c: char)
  {
    IsSpace(c) && !('\U{1C}' <= c <= '\U{1F}')
  }

  predicate IsDigit(c: char)
  {
    '0' <= c <= '9'
  }

  function DigitValue(c: char): nat
    requires IsDigit(c)
  {
    (c as int) - ('0' as int)
  }

  function DigitChar(d: nat): (c: char)
    requires d < 10
    ensures IsDigit(c) && DigitValue(c) == d
  {
    (('0' as int) + d) as char
  }

  predicate NoSpace(s: string)
  {
    forall i :: 0 <= i < |s| ==> !IsSpace(s[i])
  }

  // ---------------------------------------------------------------------
  // Stripping the whitespace `sp` at both ends

  /** Number of characters satisfying `sp` at the front of `s`. */
  function LeadingSpaces(s: string, sp: char -> bool): (n: nat)
    ensures n <= |s|
    ensures forall i :: 0 <= i < n ==> sp(s[i])
    ensures n == |s| || !sp(s[n])
  {
    if |s| == 0 || !sp(s[0]) then 0 else 1 + LeadingSpaces(s[1..], sp)
  }

  /** Number of characters satisfying `sp` at the back of `s`. */
  function TrailingSpaces(s: string, sp: char -> bool): (n: nat)
    ensures n <= |s|
    ensures forall i :: |s| - n <= i < |s| ==> sp(s[i])
    ensures n == |s| || !sp(s[|s| - n - 1])
  {
    if |s| == 0 || !sp(s[|s| - 1]) then 0 else 1 + TrailingSpaces(s[..|s| - 1], sp)
  }

  /** `s` without its leading `str.isspace()` whitespace. */
  function TrimLeft(s: string): string
  {
    s[LeadingSpaces(s, IsSpace)..]
  }

  /** `s` without the characters satisfying `sp` at either end: the slice
      `s[i..j]` whose outside is all `sp` and whose ends are not. */
  function Strip(s: string, sp: char -> bool): (r: string)
    ensures exists i, j ::
      && 0 <= i <= j <= |s| && r == s[i..j]
      && (forall k :: 0 <= k < i ==> sp(s[k]))
      && (forall k :: j <= k < |s| ==> sp(s[k]))
    ensures r == [] || (!sp(r[0]) && !sp(r[|r| - 1]))
  {
    var i := LeadingSpaces(s, sp);
    var n := TrailingSpaces(s[i..], sp);
    var j := |s| - n;
    forall k | j <= k < |s|
      ensures sp(s[k])
    {
      assert s[k] == s[i..][k - i];
    }
    assert i < j ==> s[i..j][0] == s[i] && s[i..j][j - i - 1] == s[i..][|s[i..]| - n - 1];
    s[i..j]
  }

  /** Stripping removes exactly the padding around a core that neither starts
      nor ends with a stripped character. */
  lemma StripPadded(lead: string, core: string, trail: string, sp: char -> bool)
    requires forall k :: 0 <= k < |lead| ==> sp(lead[k])
    requires forall k :: 0 <= k < |trail| ==> sp(trail[k])
    requires |core| > 0 && !sp(core[0]) && !sp(core[|core| - 1])
    ensures Strip(lead + core + trail, sp) == core
  {
    var s := lead + core + trail;
    var i := LeadingSpaces(s, sp);
    assert s[|lead|] == core[0];
    assert i == |lead|;
    var rest := s[i..];
    assert rest == core + trail;
    var n := TrailingSpaces(rest, sp);
    assert rest[|core| - 1] == core[|core| - 1];
    assert n == |trail|;
    assert s[i..|s| - n] == core;
  }

  /** Stripping a string with no whitespace at either end is the identity. */
  lemma StripUnpadded(s: string, sp: char -> bool)
    requires s == [] || (!sp(s[0]) && !sp(s[|s| - 1]))
    ensures Strip(s, sp) == s
  {
    assert LeadingSpaces(s, sp) == 0;
    assert TrailingSpaces(s, sp) == 0;
  }

  // ---------------------------------------------------------------------
  // str.split()

  /** A token `str.split()` can produce: non-empty, free of whitespace. */
  predicate IsWord(w: string)
  {
    |w| > 0 && NoSpace(w)
  }

  /** Length of the run of non-whitespace characters at the front of `s`. */
  function WordLength(s: string): (n: nat)
    ensures n <= |s|
    ensures forall i :: 0 <= i < n ==> !IsSpace(s[i])
    ensures n == |s| || IsSpace(s[n])
  {
    if |s| == 0 || IsSpace(s[0]) then 0 else 1 + WordLength(s[1..])
  }

  /** `s.split()`: the maximal runs of non-whitespace characters, in order. */
  function Split(s: string): (ws: seq<string>)
    ensures forall k :: 0 <= k < |ws| ==> IsWord(ws[k])
    decreases |s|
  {
    var t := TrimLeft(s);
    if |t| == 0 then []
    else
      var n := WordLength(t);
      assert t[..n][0] == t[0];
      [t[..n]] + Split(t[n..])
  }

  /** A run of whitespace, possibly empty. */
  predicate IsGap(g: string)
  {
    forall i :: 0 <= i < |g| ==> IsSpace(g[i])
  }

  /** Words laid out with whitespace: `lead + ws[0] + gaps[0] + ws[1] + gaps[1] + …`. */
  function Spaced(lead: string, ws: seq<string>, gaps: seq<string>): string
    requires |gaps| == |ws|
    decreases |ws|
  {
    if |ws| == 0 then lead else lead + ws[0] + Spaced(gaps[0], ws[1..], gaps[1..])
  }

  /** Words joined by single spaces (`" ".join(ws)`). */
  function JoinWords(ws: seq<string>): string
  {
    if |ws| == 0 then ""
    else if |ws| == 1 then ws[0]
    else ws[0] + " " + JoinWords(ws[1..])
  }

  lemma WordLengthOfWord(w: string, rest: string)
    requires IsWord(w)
    requires rest == [] || IsSpace(rest[0])
    ensures WordLength(w + rest) == |w|
    decreases |w|
  {
    if |w| > 1 {
      assert (w + rest)[1..] == w[1..] + rest;
      WordLengthOfWord(w[1..], rest);
    } else {
      assert (w + rest)[1..] == rest;
    }
  }

  lemma SplitLeadingSpace(c: char, s: string)
    requires IsSpace(c)
    ensures Split([c] + s) == Split(s)
  {
    assert ([c] + s)[1..] == s;
    assert TrimLeft([c] + s) == TrimLeft(s);
  }

  lemma {:induction false} LeadingSpacesOfGap(g: string, s: string)
    requires IsGap(g)
    ensures LeadingSpaces(g + s, IsSpace) == |g| + LeadingSpaces(s, IsSpace)
    decreases |g|
  {
    if |g| == 0 {
      assert g + s == s;
    } else {
      assert (g + s)[0] == g[0] && IsSpace(g[0]);
      assert (g + s)[1..] == g[1..] + s;
      LeadingSpacesOfGap(g[1..], s);
    }
  }

  /** Whitespace in front of a text does not change how it splits. */
  lemma SplitLeadingGap(g: string, s: string)
    requires IsGap(g)
    ensures Split(g + s) == Split(s)
  {
    LeadingSpacesOfGap(g, s);
    assert TrimLeft(g + s) == TrimLeft(s);
  }

  /** A word followed by whitespace (or nothing) is split off as one token. */
  lemma SplitWordThen(w: string, tail: string)
    requires IsWord(w)
    requires tail == [] || IsSpace(tail[0])
    ensures Split(w + tail) == [w] + Split(tail)
  {
    var s := w + tail;
    assert s[0] == w[0];
    assert LeadingSpaces(s, IsSpace) == 0;
    assert TrimLeft(s) == s;
    WordLengthOfWord(w, tail);
    assert s[..|w|] == w;
    assert s[|w|..] == tail;
  }

  /** Splitting a join of two or more words splits off the first word. */
  lemma SplitJoinWordsStep(ws: seq<string>)
    requires |ws| > 1 && IsWord(ws[0])
    ensures Split(JoinWords(ws)) == [ws[0]] + Split(JoinWords(ws[1..]))
  {
    var rest := JoinWords(ws[1..]);
    assert JoinWords(ws) == ws[0] + (" " + rest);
    SplitWordThen(ws[0], " " + rest);
    assert " " + rest == [' '] + rest;
    SplitLeadingSpace(' ', rest);
  }

  /** Two words with one space between them split back into the two words. */
  lemma SplitTwoWords(a: string, b: string)
    requires IsWord(a) && IsWord(b)
    ensures Split(a + " " + b) == [a, b]
  {
    assert JoinWords([a, b]) == a + " " + b by {
      assert [a, b][1..] == [b];
    }
    SplitJoinWords([a, b]);
  }

  /** Splitting words joined by single spaces gives the words back. */
  lemma {:induction false} SplitJoinWords(ws: seq<string>)
    requires forall k :: 0 <= k < |ws| ==> IsWord(ws[k])
    ensures Split(JoinWords(ws)) == ws
  {
    if |ws| == 1 {
      SplitWordThen(ws[0], "");
      assert ws[0] + "" == ws[0];
    } else if |ws| > 1 {
      SplitJoinWordsStep(ws);
      SplitJoinWords(ws[1..]);
      assert ws == [ws[0]] + ws[1..];
    }
  }

  /** The layout starts with its leading gap. */
  lemma SpacedStartsWithLead(lead: string, ws: seq<string>, gaps: seq<string>)
    requires |gaps| == |ws|
    ensures |Spaced(lead, ws, gaps)| >= |lead|
    ensures Spaced(lead, ws, gaps)[..|lead|] == lead
  {
    if |ws| > 0 {
      var r := Spaced(gaps[0], ws[1..], gaps[1..]);
      assert Spaced(lead, ws, gaps) == lead + (ws[0] + r);
    }
  }

  /** `str.split()` takes exactly the words back out of any layout that has
      whitespace (possibly none) before the first word and after the last and
      some whitespace between each two words: the tokens are the maximal
      whitespace-free runs, in order. */
  lemma {:induction false} SplitSpaced(lead: string, ws: seq<string>, gaps: seq<string>)
    requires |gaps| == |ws|
    requires IsGap(lead) && forall k :: 0 <= k < |gaps| ==> IsGap(gaps[k])
    requires forall k :: 0 <= k < |ws| ==> IsWord(ws[k])
    requires forall k :: 0 <= k < |gaps| - 1 ==> |gaps[k]| > 0
    ensures Split(Spaced(lead, ws, gaps)) == ws
    decreases |ws|
  {
    if |ws| == 0 {
      assert lead == lead + "";
      SplitLeadingGap(lead, "");
    } else {
      var r := Spaced(gaps[0], ws[1..], gaps[1..]);
      assert Spaced(lead, ws, gaps) == lead + (ws[0] + r);
      SplitLeadingGap(lead, ws[0] + r);
      SpacedStartsWithLead(gaps[0], ws[1..], gaps[1..]);
      if |gaps[0]| > 0 {
        assert r[0] == gaps[0][0];
      } else {
        assert |ws| == 1;
      }
      SplitWordThen(ws[0], r);
      SplitSpaced(gaps[0], ws[1..], gaps[1..]);
      assert ws == [ws[0]] + ws[1..];
    }
  }

  // ---------------------------------------------------------------------
  // int(text), base 10

  /** The digit part `int()` accepts: ASCII digits, underscores only between
      two digits, starting and ending with a digit. */
  predicate IsDigitGroups(d: string)
  {
    && |d| > 0
    && IsDigit(d[0]) && IsDigit(d[|d| - 1])
    && (forall i :: 0 <= i < |d| ==> IsDigit(d[i]) || d[i] == '_')
    && (forall i, j :: 0 <= i < |d| && 0 <= j < |d| && j == i + 1 ==> IsDigit(d[i]) || IsDigit(d[j]))
  }

  /** The decimal value of the digits of `d`, underscores skipped. */
  function DigitsValue(d: string): nat
    decreases |d|
  {
    if |d| == 0 then 0
    else
      var last := d[|d| - 1];
      if IsDigit(last) then 10 * DigitsValue(d[..|d| - 1]) + DigitValue(last)
      else DigitsValue(d[..|d| - 1])
  }

  /** The literal `int()` reads once whitespace is stripped: one optional
      sign, then a digit group; anything else is a `ValueError` (`None`). */
  function ParseLiteral(t: string): (r: Option<int>)
    ensures r.Some? ==> |t| > 0 && IsDigit(t[|t| - 1])
    ensures r.Some? ==>
      forall i :: 0 <= i < |t| ==> IsDigit(t[i]) || t[i] == '_' || (i == 0 && (t[i] == '+' || t[i] == '-'))
    ensures r.Some? && r.value < 0 ==> t[0] == '-'
  {
    if |t| > 0 && (t[0] == '+' || t[0] == '-') then
      var d := t[1..];
      var v: int := DigitsValue(d);
      if IsDigitGroups(d) then Some(if t[0] == '-' then -v else v)
      else None
    else if IsDigitGroups(t) then Some(DigitsValue(t))
    else None
  }

  /** A literal without its one optional leading sign. */
  function Unsigned(t: string): string
  {
    if |t| > 0 && (t[0] == '+' || t[0] == '-') then t[1..] else t
  }

  /** `int(s)`: the whitespace `int()` skips is ignored at both ends, and
      what remains must be one literal. */
  function ParseInt(s: string): (r: Option<int>)
    ensures r.Some? ==>
      var t := Strip(s, IsIntSpace);
      && |t| > 0 && IsDigit(t[|t| - 1])
      && (forall i :: 0 <= i < |t| ==> IsDigit(t[i]) || t[i] == '_' || (i == 0 && (t[i] == '+' || t[i] == '-')))
      && (r.value < 0 ==> t[0] == '-')
  {
    ParseLiteral(Strip(s, IsIntSpace))
  }

  /** `int()` accepts exactly the texts whose stripped core is one optional
      sign followed by digit groups, and reads the value of those digits,
      negated after a minus sign. This rules out, for instance, "_1", "1__0",
      "+_1", "1_" and a sign alone. */
  lemma ParseIntAccepts(s: string)
    ensures var t := Strip(s, IsIntSpace);
      ParseInt(s).Some? <==> IsDigitGroups(Unsigned(t))
    ensures var t := Strip(s, IsIntSpace);
      ParseInt(s).Some? ==>
        ParseInt(s).value == if t[0] == '-' then -(DigitsValue(Unsigned(t)) as int) else DigitsValue(Unsigned(t)) as int
  {
  }

  lemma ParseIntPadded(lead: string, core: string, trail: string)
    requires forall k :: 0 <= k < |lead| ==> IsIntSpace(lead[k])
    requires forall k :: 0 <= k < |trail| ==> IsIntSpace(trail[k])
    requires |core| > 0 && !IsIntSpace(core[0]) && !IsIntSpace(core[|core| - 1])
    ensures ParseInt(lead + core + trail) == ParseLiteral(core)
  {
    StripPadded(lead, core, trail, IsIntSpace);
  }

  lemma ParseLiteralOfGroups(sign: string, d: string)
    requires sign == "" || sign == "+" || sign == "-"
    requires IsDigitGroups(d)
    ensures ParseLiteral(sign + d) == Some(if sign == "-" then -(DigitsValue(d) as int) else DigitsValue(d) as int)
  {
    if sign == "" {
      assert sign + d == d;
    } else {
      assert (sign + d)[1..] == d;
    }
  }

  /** `int()` reads any literal it accepts, whatever whitespace it skips
      around it: an optional `+` or `-`, then digits with single underscores
      between them, possibly with leading zeros. */
  lemma ParseIntOfLiteral(lead: string, sign: string, d: string, trail: string)
    requires forall k :: 0 <= k < |lead| ==> IsIntSpace(lead[k])
    requires forall k :: 0 <= k < |trail| ==> IsIntSpace(trail[k])
    requires sign == "" || sign == "+" || sign == "-"
    requires IsDigitGroups(d)
    ensures ParseInt(lead + sign + d + trail) == Some(if sign == "-" then -(DigitsValue(d) as int) else DigitsValue(d) as int)
  {
    var core := sign + d;
    assert core[|core| - 1] == d[|d| - 1];
    assert !IsIntSpace(core[0]) by {
      assert core[0] == if sign == "" then d[0] else sign[0];
    }
    var s := lead + sign + d + trail;
    assert s == lead + core + trail;
    ParseIntPadded(lead, core, trail);
    ParseLiteralOfGroups(sign, d);
    assert ParseInt(s) == ParseLiteral(core);
  }

  /** `str(n)` for a natural number: decimal digits without leading zeros. */
  function NatToString(n: nat): (s: string)
    ensures |s| > 0
    ensures forall i :: 0 <= i < |s| ==> IsDigit(s[i])
    ensures s[0] == '0' ==> n == 0 && |s| == 1
    decreases n
  {
    if n < 10 then [DigitChar(n)] else NatToString(n / 10) + [DigitChar(n % 10)]
  }

  /** `str(n)` for any integer: a minus sign before the digits when negative. */
  function IntToString(n: int): (s: string)
    ensures |s| > 0
    ensures forall i :: 0 <= i < |s| ==> IsDigit(s[i]) || (i == 0 && s[i] == '-')
    ensures s[0] == '-' <==> n < 0
  {
    if n < 0 then "-" + NatToString(-n) else NatToString(n)
  }

  /** `str(n)` is a single token for `str.split()`. */
  lemma IntToStringIsWord(n: int)
    ensures IsWord(IntToString(n))
  {
    var s := IntToString(n);
    assert forall k :: 0 <= k < |s| ==> !IsSpace(s[k]);
  }

  lemma {:induction false} DigitsValueOfNatToString(n: nat)
    ensures DigitsValue(NatToString(n)) == n
    decreases n
  {
    if n >= 10 {
      var s := NatToString(n);
      assert s[..|s| - 1] == NatToString(n / 10);
      DigitsValueOfNatToString(n / 10);
    }
  }

  lemma DigitsAreDigitGroups(d: string)
    requires |d| > 0 && forall i :: 0 <= i < |d| ==> IsDigit(d[i])
    ensures IsDigitGroups(d)
  {
  }

  lemma StripDigits(d: string)
    requires |d| > 0 && forall i :: 0 <= i < |d| ==> IsDigit(d[i])
    ensures Strip(d, IsIntSpace) == d && Strip("-" + d, IsIntSpace) == "-" + d
  {
    StripUnpadded(d, IsIntSpace);
    var m := "-" + d;
    assert m[0] == '-' && m[|m| - 1] == d[|d| - 1];
    StripUnpadded(m, IsIntSpace);
  }

  lemma ParseLiteralOfDigits(d: string)
    requires |d| > 0 && forall i :: 0 <= i < |d| ==> IsDigit(d[i])
    ensures ParseLiteral(d) == Some(DigitsValue(d) as int)
    ensures ParseLiteral("-" + d) == Some(-(DigitsValue(d) as int))
  {
    DigitsAreDigitGroups(d);
    assert ("-" + d)[1..] == d;
  }

  /** `int()` reads plain digits, with or without a minus sign in front. */
  lemma ParseIntOfDigits(d: string)
    requires |d| > 0 && forall i :: 0 <= i < |d| ==> IsDigit(d[i])
    ensures ParseInt(d) == Some(DigitsValue(d) as int)
    ensures ParseInt("-" + d) == Some(-(DigitsValue(d) as int))
  {
    StripDigits(d);
    ParseLiteralOfDigits(d);
  }

  lemma ParseIntOfNatToString(k: nat)
    ensures ParseInt(NatToString(k)) == Some(k as int)
    ensures ParseInt("-" + NatToString(k)) == Some(-(k as int))
  {
    ParseIntOfDigits(NatToString(k));
    DigitsValueOfNatToString(k);
  }

  /** `int(str(n)) == n` for every integer. */
  lemma ParseIntOfIntToString(n: int)
    ensures ParseInt(IntToString(n)) == Some(n)
  {
    if n < 0 {
      var k: nat := -n;
      assert IntToString(n) == "-" + NatToString(k);
      ParseIntOfNatToString(k);
    } else {
      ParseIntOfNatToString(n);
    }
  }

  /** Digits as `str` writes a natural number: no leading zero except "0". */
  predicate IsCanonicalNat(d: string)
  {
    && |d| > 0
    && (forall i :: 0 <= i < |d| ==> IsDigit(d[i]))
    && (d[0] == '0' ==> |d| == 1)
  }

  /** Text as `str` writes an integer. */
  predicate IsCanonicalInt(s: string)
  {
    || IsCanonicalNat(s)
    || (|s| > 1 && s[0] == '-' && IsCanonicalNat(s[1..]) && s[1] != '0')
  }

  lemma {:induction false} NatToStringOfDigitsValue(d: string)
    requires IsCanonicalNat(d)
    ensures NatToString(DigitsValue(d)) == d
    decreases |d|
  {
    var c := d[|d| - 1];
    if |d| == 1 {
      assert DigitsValue(d) == DigitValue(c);
      assert DigitChar(DigitValue(c)) == c;
    } else {
      var d' := d[..|d| - 1];
      assert d'[0] == d[0];
      NatToStringOfDigitsValue(d');
      var v' := DigitsValue(d');
      assert v' != 0;
      var v := DigitsValue(d);
      assert v == 10 * v' + DigitValue(c);
      assert v / 10 == v' && v % 10 == DigitValue(c);
      assert DigitChar(DigitValue(c)) == c;
      assert d == d' + [c];
    }
  }

  /** `str(int(s)) == s` for text written the way `str` writes integers. */
  lemma IntToStringOfParseInt(s: string)
    requires IsCanonicalInt(s)
    ensures ParseInt(s).Some? && IntToString(ParseInt(s).value) == s
  {
    if IsCanonicalNat(s) {
      ParseIntOfDigits(s);
      NatToStringOfDigitsValue(s);
    } else {
      var d := s[1..];
      assert s == "-" + d;
      ParseIntOfDigits(d);
      NatToStringOfDigitsValue(d);
      assert DigitsValue(d) != 0;
    }
  }

  // ---------------------------------------------------------------------
  // str.split(sep) and sep.join(parts)

  /** `sep.join(parts)` for a one-character separator. */
  function JoinOn(parts: seq<string>, sep: char): string
  {
    if |parts| == 0 then ""
    else if |parts| == 1 then parts[0]
    else parts[0] + [sep] + JoinOn(parts[1..], sep)
  }

  lemma JoinOnConsChar(c: char, parts: seq<string>, sep: char)
    requires |parts| > 0
    ensures JoinOn([[c] + parts[0]] + parts[1..], sep) == [c] + JoinOn(parts, sep)
  {
    var q := [[c] + parts[0]] + parts[1..];
    assert q[1..] == parts[1..];
  }

  /** `s.split(sep)`: the fields between separators, empty fields kept. */
  function SplitOn(s: string, sep: char): (parts: seq<string>)
    ensures |parts| > 0
    ensures forall k :: 0 <= k < |parts| ==> sep !in parts[k]
    ensures JoinOn(parts, sep) == s
    decreases |s|
  {
    if |s| == 0 then [""]
    else
      var rest := SplitOn(s[1..], sep);
      if s[0] == sep then
        assert ([""] + rest)[1..] == rest;
        [""] + rest
      else
        JoinOnConsChar(s[0], rest, sep);
        assert s == [s[0]] + s[1..];
        [[s[0]] + rest[0]] + rest[1..]
  }

  lemma {:induction false} SplitOnField(p: string, sep: char, rest: string)
    requires sep !in p
    ensures SplitOn(p + [sep] + rest, sep) == [p] + SplitOn(rest, sep)
    decreases |p|
  {
    var s := p + [sep] + rest;
    if |p| == 0 {
      assert s[1..] == rest;
    } else {
      assert s[1..] == p[1..] + [sep] + rest;
      SplitOnField(p[1..], sep, rest);
      assert [p[0]] + p[1..] == p;
    }
  }

  lemma {:induction false} SplitOnLastField(p: string, sep: char)
    requires sep !in p
    ensures SplitOn(p, sep) == [p]
    decreases |p|
  {
    if |p| > 0 {
      SplitOnLastField(p[1..], sep);
      assert [p[0]] + p[1..] == p;
    }
  }

  /** Splitting fields joined by a separator none of them contains gives the
      fields back. */
  lemma {:induction false} SplitOnJoinOn(parts: seq<string>, sep: char)
    requires |parts| > 0
    requires forall k :: 0 <= k < |parts| ==> sep !in parts[k]
    ensures SplitOn(JoinOn(parts, sep), sep) == parts
  {
    if |parts| == 1 {
      SplitOnLastField(parts[0], sep);
    } else {
      SplitOnJoinOn(parts[1..], sep);
      SplitOnField(parts[0], sep, JoinOn(parts[1..], sep));
    }
  }
}

=== FILE: redemption_handlers.dfy ===
/** Point redemption: the user arms the amount prompt, types an amount, a
    pending request is stored and every administrator receives approve/reject
    buttons whose callback data names the request; the button press resolves
    the request against the user's balance at that moment. */
module RedemptionHandlers {
  import opened Maybe
  import opened Config
  import opened PyText
  import opened Database
  import opened Conversation

  // ---------------------------------------------------------------------
  // Callback data of the administrator's buttons

  /** `f"admin_redeem_{action}_{request_id}"`. */
  function RedeemData(action: string, requestId: int): string
  {
    "admin_redeem_" + action + "_" + IntToString(requestId)
  }

  /** `data.split('_')[2]` and `int(data.split('_')[3])`; `None` where either
      raises (too few fields, or a fourth field that is not an integer). The
      action read is a whole `_`-separated field, so it never holds `_`. */
  function ParseRedeemData(data: string): (r: Option<(string, int)>)
    ensures r.Some? <==> |SplitOn(data, '_')| >= 4 && ParseInt(SplitOn(data, '_')[3]).Some?
    ensures r.Some? ==> r.value == (SplitOn(data, '_')[2], ParseInt(SplitOn(data, '_')[3]).value)
    ensures r.Some? ==> '_' !in r.value.0
  {
    var parts := SplitOn(data, '_');
    if |parts| < 4 then None
    else match ParseInt(parts[3])
      case None => None
      case Some(id) => Some((parts[2], id))
  }

  lemma RedeemDataFields(action: string, digits: string)
    ensures "admin_redeem_" + action + "_" + digits == JoinOn(["admin", "redeem", action, digits], '_')
  {
    var fs := ["admin", "redeem", action, digits];
    assert JoinOn(fs[1..][1..][1..], '_') == digits;
    assert JoinOn(fs[1..][1..], '_') == action + "_" + digits;
    assert JoinOn(fs[1..], '_') == "redeem" + "_" + action + "_" + digits;
    assert "admin_redeem_" == "admin" + "_" + "redeem" + "_";
  }

  /** Any callback data, written as its `_`-separated fields: fewer than four
      fields, or a fourth field `int()` refuses, is malformed; otherwise the
      action is the third field and the id the value of the fourth, whatever
      the first two fields are and however many fields follow. */
  lemma ParseRedeemDataOfFields(parts: seq<string>)
    requires |parts| > 0
    requires forall k :: 0 <= k < |parts| ==> '_' !in parts[k]
    ensures ParseRedeemData(JoinOn(parts, '_'))
         == if |parts| < 4 || ParseInt(parts[3]).None? then None
            else Some((parts[2], ParseInt(parts[3]).value))
  {
    SplitOnJoinOn(parts, '_');
  }

  /** The data built for a request parses back to the same action and
      request id, for any action without an underscore and any integer id. */
  lemma RedeemDataParses(action: string, requestId: int)
    requires '_' !in action
    ensures ParseRedeemData(RedeemData(action, requestId)) == Some((action, requestId))
  {
    var digits := IntToString(requestId);
    assert forall i :: 0 <= i < |digits| ==> digits[i] != '_';
    RedeemDataFields(action, digits);
    ParseRedeemDataOfFields(["admin", "redeem", action, digits]);
    ParseIntOfIntToString(requestId);
  }

  /** Data with fewer than four fields is malformed. */
  lemma ShortRedeemDataMalformed()
    ensures ParseRedeemData("admin_redeem_confirm") == None
  {
    assert JoinOn(["admin", "redeem", "confirm"], '_') == "admin_redeem_confirm";
    ParseRedeemDataOfFields(["admin", "redeem", "confirm"]);
  }

  // ---------------------------------------------------------------------
  // Handlers

  /** `start_redemption`: a registered caller is shown the balance and the
      amount prompt is armed; anyone else is told to finish registering. */
  function StartRedemption(st: Store, ses: Session, tg: int): (o: Outcome)
    ensures o.store == st && !o.raised
    ensures match UserByTelegram(st.users, tg)
      case Some(i) =>
        if st.users[i].registrationComplete then
          o.session == ses.(awaitingRedemptionAmount := true)
          && o.sent == [Message(tg, AskRedemptionAmount(st.users[i].balance))]
        else o.session == ses && o.sent == [Message(tg, CompleteRegistration)]
      case None => o.session == ses && o.sent == [Message(tg, CompleteRegistration)]
  {
    match UserByTelegram(st.users, tg)
    case Some(i) =>
      if st.users[i].registrationComplete then
        Reply(st, ses.(awaitingRedemptionAmount := true), tg, AskRedemptionAmount(st.users[i].balance))
      else Reply(st, ses, tg, CompleteRegistration)
    case None => Reply(st, ses, tg, CompleteRegistration)
  }

  /** `notify_admins_about_redemption`: one message with both buttons to each
      administrator; by `RedeemDataParses` the buttons' data parse back
      to `confirm` and `reject` of this request. */
  function NotifyAdminsOfRedemption(u: User, req: RedemptionRequest): (ms: seq<Message>)
    ensures |ms| == |AdminIds|
    ensures forall k :: 0 <= k < |ms| ==>
      ms[k] == Message(AdminIds[k], RedemptionRequested(u.id, req.amount, u.balance,
        RedeemData("confirm", req.id), RedeemData("reject", req.id)))
  {
    var confirm, reject := RedeemData("confirm", req.id), RedeemData("reject", req.id);
    seq(|AdminIds|, k requires 0 <= k < |AdminIds| =>
      Message(AdminIds[k], RedemptionRequested(u.id, req.amount, u.balance, confirm, reject)))
  }

  /** The request a caller's amount input creates, if any: the caller has a row
      whose balance covers the amount. The amount is not required to be positive
      and the registration flag is not consulted. */
  predicate Creates(st: Store, tg: int, amount: int)
  {
    && UserByTelegram(st.users, tg).Some?
    && st.users[UserByTelegram(st.users, tg).value].balance >= amount
  }

  /** `handle_redemption_confirmation`: the typed amount becomes a pending
      request when the caller's balance covers it; the prompt is disarmed after
      any input it handles. */
  function HandleRedemptionConfirmation(st: Store, ses: Session, tg: int, text: string): (o: Outcome)
    ensures !o.raised && o.store.users == st.users && o.store.bookings == st.bookings
    ensures !ses.awaitingRedemptionAmount ==> o.store == st && o.session == ses && o.sent == []
    ensures ses.awaitingRedemptionAmount ==> o.session == ses.(awaitingRedemptionAmount := false)
    ensures o.store.requests != st.requests <==>
      ses.awaitingRedemptionAmount && ParseInt(text).Some? && Creates(st, tg, ParseInt(text).value)
    ensures o.store.requests != st.requests ==>
      var u := st.users[UserByTelegram(st.users, tg).value];
      && o.store.requests == st.requests + [NewRequest(st.nextRequestSerial, u.id, ParseInt(text).value)]
      && o.store.nextRequestSerial == st.nextRequestSerial + 1
      && |o.sent| > 0 && o.sent[|o.sent| - 1] == Message(tg, RedemptionSubmitted(ParseInt(text).value))
    ensures o.store.requests == st.requests ==> o.store == st
    ensures ses.awaitingRedemptionAmount && ParseInt(text).None? ==> o.sent == [Message(tg, EnterNumber)]
    ensures Valid(st) ==> Valid(o.store)
  {
    if !ses.awaitingRedemptionAmount then Silent(st, ses)
    else
      var ses' := ses.(awaitingRedemptionAmount := false);
      match ParseInt(text)
      case None => Reply(st, ses', tg, EnterNumber)
      case Some(amount) =>
        if Creates(st, tg, amount) then FileRequest(st, ses', tg, amount)
        else Reply(st, ses', tg, NotEnoughPoints)
  }

  /** The filing branch: one pending request for the caller's row under the
      next request id, the administrators notified, the caller told. Nothing
      else in the store changes. */
  function FileRequest(st: Store, ses: Session, tg: int, amount: int): (o: Outcome)
    requires Creates(st, tg, amount)
    ensures var u := st.users[UserByTelegram(st.users, tg).value];
      && o.store == st.(requests := st.requests + [NewRequest(st.nextRequestSerial, u.id, amount)],
                        nextRequestSerial := st.nextRequestSerial + 1)
      && o.session == ses && !o.raised
      && o.sent == NotifyAdminsOfRedemption(u, o.store.requests[|st.requests|]) + [Message(tg, RedemptionSubmitted(amount))]
    ensures o.store.requests != st.requests
    ensures Valid(st) ==> Valid(o.store)
  {
    var u := st.users[UserByTelegram(st.users, tg).value];
    var req := NewRequest(st.nextRequestSerial, u.id, amount);
    var st' := st.(requests := st.requests + [req], nextRequestSerial := st.nextRequestSerial + 1);
    assert st'.requests != st.requests by { assert |st'.requests| == |st.requests| + 1; }
    assert Valid(st) ==> Valid(st') by { if Valid(st) { AppendRequestValid(st, req); } }
    Outcome(st', ses, NotifyAdminsOfRedemption(u, req) + [Message(tg, RedemptionSubmitted(amount))], false)
  }

  /** What pressing a button does to the request it names: the request's
      position, and the position of the user to debit when it is approved
      (`None` when it is rejected). */
  datatype Resolution = Resolution(request: nat, debit: Option<nat>)

  /** The resolution a button press performs, if any. A confirmation looks the
      requesting user up and approves when that user's balance covers the
      amount, rejecting otherwise; any other action rejects without looking at
      the user. `None` for a malformed payload, an unknown request, or a
      confirmation whose user row is gone. */
  function Resolve(st: Store, data: string): (r: Option<Resolution>)
    ensures var p := ParseRedeemData(data);
      r.None? <==>
        || p.None?
        || RequestById(st.requests, p.value.1).None?
        || (p.value.0 == "confirm" && UserById(st.users, st.requests[RequestById(st.requests, p.value.1).value].userId).None?)
    ensures r.Some? ==>
      && ParseRedeemData(data).Some?
      && RequestById(st.requests, ParseRedeemData(data).value.1) == Some(r.value.request)
    ensures r.Some? ==>
      var req := st.requests[r.value.request];
      var owner := UserById(st.users, req.userId);
      && (r.value.debit.Some? <==>
            ParseRedeemData(data).value.0 == "confirm" && owner.Some? && st.users[owner.value].balance >= req.amount)
      && (r.value.debit.Some? ==> r.value.debit == owner)
    ensures r.Some? ==> r.value.request < |st.requests|
    ensures r.Some? && r.value.debit.Some? ==>
      && r.value.debit.value < |st.users|
      && st.users[r.value.debit.value].id == st.requests[r.value.request].userId
      && st.users[r.value.debit.value].balance >= st.requests[r.value.request].amount
  {
    if ParseRedeemData(data).None? then None
    else
      var (action, rid) := ParseRedeemData(data).value;
      if RequestById(st.requests, rid).None? then None
      else
        var k := RequestById(st.requests, rid).value;
        if action != "confirm" then Some(Resolution(k, None))
        else if UserById(st.users, st.requests[k].userId).None? then None
        else
          var i := UserById(st.users, st.requests[k].userId).value;
          Some(Resolution(k, if st.users[i].balance >= st.requests[k].amount then Some(i) else None))
  }

  /** `handle_admin_redemption`: a malformed payload, or a confirmation whose
      user row is gone, raises and changes nothing; an unknown request changes
      nothing; otherwise the resolution is applied. The request's current
      status is not consulted. */
  function HandleAdminRedemption(st: Store, ses: Session, tg: int, data: string): (o: Outcome)
    ensures Resolve(st, data).None? ==> o.store == st && o.session == ses && o.sent == []
    ensures o.raised <==>
      || ParseRedeemData(data).None?
      || (RequestById(st.requests, ParseRedeemData(data).value.1).Some? && Resolve(st, data).None?)
    ensures Resolve(st, data).Some? ==> o == ApplyResolution(st, ses, tg, Resolve(st, data).value)
  {
    match ParseRedeemData(data)
    case None => Outcome(st, ses, [], true)
    case Some((action, rid)) =>
      match RequestById(st.requests, rid)
      case None => Silent(st, ses)
      case Some(k) =>
        if action == "confirm" && UserById(st.users, st.requests[k].userId).None? then Outcome(st, ses, [], true)
        else ApplyResolution(st, ses, tg, Resolve(st, data).value)
  }

  /** A resolution applied: the named request alone changes status; approval
      debits exactly the amount from the requesting user and nobody else, and
      since approval needs a covering balance that balance stays non-negative;
      a rejection leaves every balance as it was. */
  function ApplyResolution(st: Store, ses: Session, tg: int, r: Resolution): (o: Outcome)
    requires r.request < |st.requests|
    requires r.debit.Some? ==>
      r.debit.value < |st.users| && st.users[r.debit.value].balance >= st.requests[r.request].amount
    ensures o.session == ses && !o.raised
    ensures o.store.bookings == st.bookings
    ensures o.store.nextUserSerial == st.nextUserSerial
    ensures o.store.nextBookingSerial == st.nextBookingSerial
    ensures o.store.nextRequestSerial == st.nextRequestSerial
    ensures |o.store.requests| == |st.requests| && |o.store.users| == |st.users|
    ensures o.store.requests[r.request]
      == st.requests[r.request].(status := if r.debit.Some? then Approved else Rejected)
    ensures forall k :: 0 <= k < |st.requests| && k != r.request ==> o.store.requests[k] == st.requests[k]
    ensures r.debit.None? ==> o.store.users == st.users
    ensures r.debit.Some? ==>
      var i := r.debit.value;
      && (forall j :: 0 <= j < |st.users| && j != i ==> o.store.users[j] == st.users[j])
      && o.store.users[i] == st.users[i].(balance := st.users[i].balance - st.requests[r.request].amount)
      && o.store.users[i].balance >= 0
    ensures Valid(st) ==> Valid(o.store)
  {
    var req := st.requests[r.request];
    match r.debit
    case Some(i) =>
      var u := st.users[i];
      var u' := u.(balance := u.balance - req.amount);
      var st' := st.(users := st.users[i := u'], requests := st.requests[r.request := req.(status := Approved)]);
      Outcome(st', ses, [Message(u.telegramId, PointsDebited(req.amount, u'.balance)),
                         Message(tg, RedemptionApproved)], false)
    case None =>
      var st' := st.(requests := st.requests[r.request := req.(status := Rejected)]);
      Outcome(st', ses, [Message(tg, RedemptionRejected)], false)
  }

  /** The confirm button of a request resolves to approving that request for
      its user whenever the user's balance covers the amount. */
  lemma ConfirmResolves(st: Store, k: nat, i: nat)
    requires k < |st.requests| && i < |st.users|
    requires forall j :: 0 <= j < k ==> st.requests[j].id != st.requests[k].id
    requires UniqueUserIds(st.users) && st.users[i].id == st.requests[k].userId
    requires st.users[i].balance >= st.requests[k].amount
    ensures Resolve(st, RedeemData("confirm", st.requests[k].id)) == Some(Resolution(k, Some(i)))
  {
    var data := RedeemData("confirm", st.requests[k].id);
    RedeemDataParses("confirm", st.requests[k].id);
    assert ParseRedeemData(data) == Some(("confirm", st.requests[k].id));
    assert RequestById(st.requests, st.requests[k].id) == Some(k);
    assert UserById(st.users, st.users[i].id) == Some(i);
  }

  /** A negative amount passes the balance check of any caller with a row
      and a non-negative balance, and is filed as a pending request. */
  lemma NegativeAmountFiled(st: Store, ses: Session, tg: int, amount: int)
    requires UserByTelegram(st.users, tg).Some?
    requires ses.awaitingRedemptionAmount
    requires st.users[UserByTelegram(st.users, tg).value].balance >= 0
    requires amount < 0
    ensures var u := st.users[UserByTelegram(st.users, tg).value];
      HandleRedemptionConfirmation(st, ses, tg, IntToString(amount)).store.requests
        == st.requests + [NewRequest(st.nextRequestSerial, u.id, amount)]
  {
    ParseIntOfIntToString(amount);
    assert Creates(st, tg, amount);
  }

  /** Approving a request for a negative amount raises its user's balance. */
  lemma ApproveNegativeRequestCredits(st: Store, ses: Session, admin: int, k: nat, i: nat)
    requires k < |st.requests| && i < |st.users|
    requires forall j :: 0 <= j < k ==> st.requests[j].id != st.requests[k].id
    requires UniqueUserIds(st.users) && st.users[i].id == st.requests[k].userId
    requires st.requests[k].amount < 0 <= st.users[i].balance
    ensures var o := HandleAdminRedemption(st, ses, admin, RedeemData("confirm", st.requests[k].id));
      && |o.store.users| == |st.users|
      && o.store.requests[k].status == Approved
      && o.store.users[i].balance == st.users[i].balance - st.requests[k].amount > st.users[i].balance
  {
    ConfirmResolves(st, k, i);
  }

  /** Filing a negative amount and then approving the request credits the
      user by the amount's magnitude. */
  lemma NegativeRequestCredits(st: Store, ses: Session, tg: int, admin: int, amount: int)
    requires Valid(st)
    requires UserByTelegram(st.users, tg).Some?
    requires ses.awaitingRedemptionAmount
    requires st.users[UserByTelegram(st.users, tg).value].balance >= 0
    requires amount < 0
    ensures var i := UserByTelegram(st.users, tg).value;
      var o1 := HandleRedemptionConfirmation(st, ses, tg, IntToString(amount));
      var o2 := HandleAdminRedemption(o1.store, ses, admin, RedeemData("confirm", st.nextRequestSerial));
      && |o1.store.requests| == |st.requests| + 1
      && |o2.store.users| == |st.users|
      && o2.store.users[i].balance == st.users[i].balance - amount > st.users[i].balance
  {
    var i := UserByTelegram(st.users, tg).value;
    NegativeAmountFiled(st, ses, tg, amount);
    var st1 := HandleRedemptionConfirmation(st, ses, tg, IntToString(amount)).store;
    var n := |st.requests|;
    assert st1.requests[n] == NewRequest(st.nextRequestSerial, st.users[i].id, amount);
    assert forall j :: 0 <= j < n ==> st1.requests[j] == st.requests[j];
    ApproveNegativeRequestCredits(st1, ses, admin, n, i);
  }

  /** Pressing reject, or any other action but confirm, on an existing
      request rejects it, leaves every other request and every balance alone,
      and does not look at the user row at all. */
  lemma RejectRejects(st: Store, ses: Session, admin: int, action: string, k: nat)
    requires k < |st.requests|
    requires forall j :: 0 <= j < k ==> st.requests[j].id != st.requests[k].id
    requires '_' !in action && action != "confirm"
    ensures var o := HandleAdminRedemption(st, ses, admin, RedeemData(action, st.requests[k].id));
      && !o.raised && o.store.users == st.users
      && |o.store.requests| == |st.requests|
      && o.store.requests[k] == st.requests[k].(status := Rejected)
      && (forall j :: 0 <= j < |st.requests| && j != k ==> o.store.requests[j] == st.requests[j])
  {
    RedeemDataParses(action, st.requests[k].id);
    assert RequestById(st.requests, st.requests[k].id) == Some(k);
  }

  /** Pressing confirm on a request whose user's balance no longer covers it
      rejects the request and changes no balance. */
  lemma ConfirmUncoveredRejects(st: Store, ses: Session, admin: int, k: nat, i: nat)
    requires k < |st.requests| && i < |st.users|
    requires forall j :: 0 <= j < k ==> st.requests[j].id != st.requests[k].id
    requires UniqueUserIds(st.users) && st.users[i].id == st.requests[k].userId
    requires st.users[i].balance < st.requests[k].amount
    ensures var o := HandleAdminRedemption(st, ses, admin, RedeemData("confirm", st.requests[k].id));
      && !o.raised && o.store.users == st.users
      && |o.store.requests| == |st.requests|
      && o.store.requests[k] == st.requests[k].(status := Rejected)
  {
    var data := RedeemData("confirm", st.requests[k].id);
    RedeemDataParses("confirm", st.requests[k].id);
    assert ParseRedeemData(data) == Some(("confirm", st.requests[k].id));
    assert RequestById(st.requests, st.requests[k].id) == Some(k);
    assert UserById(st.users, st.users[i].id) == Some(i);
  }

  /** The request's status is not consulted: pressing confirm a second time
      approves the already approved request again and debits the amount twice. */
  lemma ConfirmTwiceDebitsTwice(st: Store, ses: Session, admin: int, k: nat, i: nat)
    requires k < |st.requests| && i < |st.users|
    requires forall j :: 0 <= j < k ==> st.requests[j].id != st.requests[k].id
    requires UniqueUserIds(st.users) && st.users[i].id == st.requests[k].userId
    requires st.users[i].balance >= 2 * st.requests[k].amount >= 0
    ensures var data := RedeemData("confirm", st.requests[k].id);
      var o1 := HandleAdminRedemption(st, ses, admin, data);
      var o2 := HandleAdminRedemption(o1.store, ses, admin, data);
      && |o2.store.users| == |st.users|
      && o2.store.requests[k].status == Approved
      && o2.store.users[i].balance == st.users[i].balance - 2 * st.requests[k].amount
  {
    var data := RedeemData("confirm", st.requests[k].id);
    ConfirmResolves(st, k, i);
    var st1 := HandleAdminRedemption(st, ses, admin, data).store;
    assert st1.requests[k].id == st.requests[k].id && st1.requests[k].amount == st.requests[k].amount;
    assert forall j :: 0 <= j < k ==> st1.requests[j] == st.requests[j];
    assert UniqueUserIds(st1.users) by {
      assert forall j :: 0 <= j < |st.users| ==> st1.users[j].id == st.users[j].id;
    }
    ConfirmResolves(st1, k, i);
  }
}

=== FILE: user_handlers.dfy ===
/** Registration: `/start` creates a placeholder row on first contact, three
    free-text answers fill first name, last name and phone into the session,
    confirmation writes them to the row with the welcome balance and a fresh
    internal id from the pool, and editing restarts the questions. Free text is
    routed by the session flags. */
module UserHandlers {
  import opened Maybe
  import opened Config
  import opened Database
  import opened Conversation
  import opened IdPool
  import RedemptionHandlers
  import BookingHandlers

  /** The number of questions: first name, last name, phone. */
  const Questions: nat := 3

  /** `ask_registration_data`: the question for the current step (0 when the
      session has none), or the summary of the collected answers once every
      question has been asked. */
  function AskRegistrationData(ses: Session): (b: Body)
    ensures b.AskField? <==> ses.registrationStep.GetOr(0) < Questions
    ensures b.AskField? ==> b.field == ses.registrationStep.GetOr(0)
    ensures !b.AskField? ==> b == Summary(ses.firstName, ses.lastName, ses.phone)
  {
    var step := ses.registrationStep.GetOr(0);
    if step < Questions then AskField(step) else Summary(ses.firstName, ses.lastName, ses.phone)
  }

  /** `start`: a registered caller gets the main menu and a partially
      registered one the current question, neither changing anything; on
      first contact a placeholder row is added. */
  function Start(st: Store, ses: Session, tg: int): (o: Outcome)
    ensures UserByTelegram(st.users, tg).Some? ==>
      var u := st.users[UserByTelegram(st.users, tg).value];
      && o.store == st && o.session == ses && !o.raised
      && (u.registrationComplete ==> o.sent == [Message(tg, MainMenu(u.firstName))])
      && (!u.registrationComplete ==>
            o.sent == [Message(tg, CompleteRegistration), Message(tg, AskRegistrationData(ses))])
    ensures UserByTelegram(st.users, tg).None? ==> o == FirstContact(st, ses, tg)
    ensures Valid(st) ==> Valid(o.store)
  {
    match UserByTelegram(st.users, tg)
    case Some(i) =>
      var u := st.users[i];
      if u.registrationComplete then Reply(st, ses, tg, MainMenu(u.firstName))
      else Outcome(st, ses, [Message(tg, CompleteRegistration), Message(tg, AskRegistrationData(ses))], false)
    case None => FirstContact(st, ses, tg)
  }

  /** The first-contact branch of `start`: a placeholder row is inserted under
      the next value of the user id sequence with every column at its default,
      and the questions start. The insert fails, leaving the tables as they
      were, when a confirmed registration already took that id from the pool.
      The sequence value is consumed either way. */
  function FirstContact(st: Store, ses: Session, tg: int): (o: Outcome)
    requires UserByTelegram(st.users, tg).None?
    ensures o.store == st.(users := o.store.users, nextUserSerial := st.nextUserSerial + 1)
    ensures o.raised <==> UserById(st.users, st.nextUserSerial).Some?
    ensures o.raised ==> o.store.users == st.users && o.session == ses && o.sent == []
    ensures !o.raised ==>
      && |o.store.users| == |st.users| + 1
      && o.store.users[..|st.users|] == st.users
      && o.store.users[|st.users|].id == st.nextUserSerial
      && o.store.users[|st.users|].telegramId == tg
      && o.store.users[|st.users|].balance == 0
      && !o.store.users[|st.users|].registrationComplete
      && o.store.users[|st.users|].firstName.None?
      && o.store.users[|st.users|].lastName.None?
      && o.store.users[|st.users|].phone.None?
      && UserByTelegram(o.store.users, tg) == Some(|st.users|)
      && o.session == ses.(registrationStep := Some(0))
      && o.sent == [Message(tg, Welcome), Message(tg, AskField(0))]
    ensures Valid(st) ==> Valid(o.store)
  {
    var id := st.nextUserSerial;
    var st' := st.(nextUserSerial := id + 1);
    if UserById(st.users, id).Some? then Outcome(st', ses, [], true)
    else
      var users' := st.users + [NewUser(id, tg)];
      assert users'[..|st.users|] == st.users;
      assert forall j :: 0 <= j < |st.users| ==> users'[j] == st.users[j];
      var ses' := ses.(registrationStep := Some(0));
      Outcome(st'.(users := users'), ses', [Message(tg, Welcome), Message(tg, AskRegistrationData(ses'))], false)
  }

  /** `handle_registration_data`: the answer to question 0, 1 or 2 is kept as
      first name, last name or phone respectively (later answers are dropped),
      the step advances by one, and the next question or the summary follows.
      The store is not touched. */
  function HandleRegistrationData(st: Store, ses: Session, tg: int, text: string): (o: Outcome)
    ensures o.store == st && !o.raised
    ensures o.session.registrationStep == Some(ses.registrationStep.GetOr(0) + 1)
    ensures o.session.firstName == if ses.registrationStep.GetOr(0) == 0 then Some(text) else ses.firstName
    ensures o.session.lastName == if ses.registrationStep.GetOr(0) == 1 then Some(text) else ses.lastName
    ensures o.session.phone == if ses.registrationStep.GetOr(0) == 2 then Some(text) else ses.phone
    ensures o.session == ses.(registrationStep := o.session.registrationStep, firstName := o.session.firstName,
                              lastName := o.session.lastName, phone := o.session.phone)
    ensures ses.registrationStep.GetOr(0) + 1 < Questions ==>
      o.sent == [Message(tg, AskField(ses.registrationStep.GetOr(0) + 1))]
    ensures ses.registrationStep.GetOr(0) + 1 >= Questions ==>
      o.sent == [Message(tg, Summary(o.session.firstName, o.session.lastName, o.session.phone))]
  {
    var step := ses.registrationStep.GetOr(0);
    var answered :=
      if step == 0 then ses.(firstName := Some(text))
      else if step == 1 then ses.(lastName := Some(text))
      else if step == 2 then ses.(phone := Some(text))
      else ses;
    var ses' := answered.(registrationStep := Some(step + 1));
    Reply(st, ses', tg, AskRegistrationData(ses'))
  }

  /** Three answers given from the first question fill first name, last name
      and phone in that order and end with the summary of exactly those answers. */
  lemma DialogueCollectsAnswers(st: Store, ses: Session, tg: int, first: string, last: string, phone: string)
    requires ses.registrationStep == Some(0)
    ensures var o1 := HandleRegistrationData(st, ses, tg, first);
      var o2 := HandleRegistrationData(o1.store, o1.session, tg, last);
      var o3 := HandleRegistrationData(o2.store, o2.session, tg, phone);
      && o3.store == st
      && o3.session == ses.(registrationStep := Some(Questions), firstName := Some(first),
                            lastName := Some(last), phone := Some(phone))
      && o3.sent == [Message(tg, Summary(Some(first), Some(last), Some(phone)))]
  {
  }

  /** `handle_registration`: the caller's row takes the session's answers,
      a balance of exactly the welcome bonus (overwriting whatever it held),
      the registered flag, and a pool id no other row holds. Without a row
      nothing happens; when every pool id is held the handler raises and
      nothing is committed. The session is not touched, so its step stays set. */
  function HandleRegistration(st: Store, ses: Session, tg: int): (o: Outcome)
    ensures o.session == ses
    ensures o.store.bookings == st.bookings && o.store.requests == st.requests
    ensures o.store.nextUserSerial == st.nextUserSerial
    ensures o.store.nextBookingSerial == st.nextBookingSerial
    ensures o.store.nextRequestSerial == st.nextRequestSerial
    ensures UserByTelegram(st.users, tg).None? ==> o.store == st && o.sent == [] && !o.raised
    ensures o.raised <==>
      UserByTelegram(st.users, tg).Some? && forall id :: InPool(id) ==> id in PoolIds(st.users)
    ensures o.raised ==> o.store == st && o.sent == []
    ensures |o.store.users| == |st.users|
    ensures UserByTelegram(st.users, tg).Some? && !o.raised ==>
      var i := UserByTelegram(st.users, tg).value;
      var u := o.store.users[i];
      && (forall j :: 0 <= j < |st.users| && j != i ==> o.store.users[j] == st.users[j])
      && u.telegramId == tg
      && u.firstName == ses.firstName && u.lastName == ses.lastName && u.phone == ses.phone
      && u.balance == WelcomeBonus && u.registrationComplete
      && InPool(u.id)
      && (forall j :: 0 <= j < |st.users| ==> st.users[j].id != u.id)
      && o.sent == [Message(tg, Registered(u.id, ses.firstName, ses.lastName, ses.phone))]
    ensures Valid(st) ==> Valid(o.store)
  {
    AllocateIdFresh(st.users);
    match UserByTelegram(st.users, tg)
    case None => Silent(st, ses)
    case Some(i) =>
      match AllocateId(st.users)
      case None => Outcome(st, ses, [], true)
      case Some(newId) =>
        var u := st.users[i].(id := newId, firstName := ses.firstName, lastName := ses.lastName,
                              phone := ses.phone, balance := WelcomeBonus, registrationComplete := true);
        Outcome(st.(users := st.users[i := u]), ses,
          [Message(tg, Registered(newId, ses.firstName, ses.lastName, ses.phone))], false)
  }

  /** Confirming a second time writes the welcome balance over the balance the
      user has built up since, and moves the user to another pool id. */
  lemma ReconfirmResetsBalance(st: Store, ses: Session, tg: int)
    requires UserByTelegram(st.users, tg).Some?
    requires st.users[UserByTelegram(st.users, tg).value].registrationComplete
    requires exists id :: InPool(id) && id !in PoolIds(st.users)
    ensures var o := HandleRegistration(st, ses, tg);
      var i := UserByTelegram(st.users, tg).value;
      && !o.raised
      && o.store.users[i].balance == WelcomeBonus
      && o.store.users[i].id != st.users[i].id
  {
  }

  /** `edit_registration`: the step goes back to 0 and the button's message
      is edited, then the handler raises. It runs on a button press, which
      carries no `update.message`, so the question that `ask_registration_data`
      would send via `update.message.reply_text` is never sent. The answers
      already in the session stay until they are overwritten. */
  function EditRegistration(st: Store, ses: Session, tg: int): (o: Outcome)
    ensures o.store == st && o.raised
    ensures o.session.registrationStep == Some(0)
    ensures o.session.firstName == ses.firstName && o.session.lastName == ses.lastName && o.session.phone == ses.phone
    ensures o.session == ses.(registrationStep := Some(0))
    ensures o.sent == [Message(tg, RegistrationRestarted)]
  {
    Outcome(st, ses.(registrationStep := Some(0)), [Message(tg, RegistrationRestarted)], true)
  }

  // ---------------------------------------------------------------------
  // Free-text routing

  /** Where `handle_all_messages` sends a text message. */
  datatype Route = ToRegistration | ToRedemption | ToBooking | ToHelp

  /** The first flag that is set wins: a registration step, then the
      redemption prompt, then the booking prompt. */
  function RouteText(ses: Session): (r: Route)
    ensures r == ToRegistration <==> ses.registrationStep.Some?
    ensures r == ToRedemption <==> ses.registrationStep.None? && ses.awaitingRedemptionAmount
    ensures r == ToBooking <==>
      ses.registrationStep.None? && !ses.awaitingRedemptionAmount && ses.awaitingBookingData
    ensures r == ToHelp <==>
      ses.registrationStep.None? && !ses.awaitingRedemptionAmount && !ses.awaitingBookingData
  {
    if ses.registrationStep.Some? then ToRegistration
    else if ses.awaitingRedemptionAmount then ToRedemption
    else if ses.awaitingBookingData then ToBooking
    else ToHelp
  }

  /** `handle_all_messages`: the routed handler's outcome, or the hint to use
      the menu buttons. */
  function HandleAllMessages(st: Store, ses: Session, tg: int, text: string): (o: Outcome)
    ensures RouteText(ses) == ToRegistration ==> o == HandleRegistrationData(st, ses, tg, text)
    ensures RouteText(ses) == ToRedemption ==> o == RedemptionHandlers.HandleRedemptionConfirmation(st, ses, tg, text)
    ensures RouteText(ses) == ToBooking ==> o == BookingHandlers.HandleBookingData(st, ses, tg, text)
    ensures RouteText(ses) == ToHelp ==> o == Reply(st, ses, tg, UseMenu)
  {
    match RouteText(ses)
    case ToRegistration => HandleRegistrationData(st, ses, tg, text)
    case ToRedemption => RedemptionHandlers.HandleRedemptionConfirmation(st, ses, tg, text)
    case ToBooking => BookingHandlers.HandleBookingData(st, ses, tg, text)
    case ToHelp => Reply(st, ses, tg, UseMenu)
  }

  /** Once a registration step is set, every text message is taken as a
      registration answer: the store is untouched and the step stays set, so
      a typed redemption amount is never read. */
  lemma TextAfterRegistrationStep(st: Store, ses: Session, tg: int, text: string)
    requires ses.registrationStep.Some?
    ensures var o := HandleAllMessages(st, ses, tg, text);
      && o.store == st
      && o.session.registrationStep.Some?
      && o.session.awaitingRedemptionAmount == ses.awaitingRedemptionAmount
  {
  }

  /** After an edit press, the next text message is read as the first name
      again, overwriting the one collected before. */
  lemma EditRestartsQuestions(st: Store, ses: Session, tg: int, text: string)
    ensures var o := EditRegistration(st, ses, tg);
      var o2 := HandleAllMessages(o.store, o.session, tg, text);
      && o2.store == st
      && o2.session.firstName == Some(text)
      && o2.session.registrationStep == Some(1)
      && o2.sent == [Message(tg, AskField(1))]
  {
  }
}
